=== FILE: README.md ===
# helmsdk core, modelled in Dafny

This project models the two pieces of whitefirer/helmsdk that hold its own logic. The
rest of the repository is calls into helm, client-go and strvals.

- **Client getter and discovery-cache path** (`helmclient/client_getter.go`).
  `RESTClientGetter` is the object that hands helm a REST config, a disk-cached discovery
  client, a REST mapper and a kubeconfig loader. `computeDiscoverCacheDir` derives the
  on-disk cache directory of a cluster's API catalogue in three steps:
  - it strips the first `https://` and then the first `http://`;
  - it turns every character outside `[(\w/.)]` into `_`;
  - it joins the result under a parent directory with `filepath.Join`.
- **Package entry points** (`helm.go`):
  - building a Kubernetes client, either from the ambient kubeconfig file or from a
    kubeconfig document, with the server, TLS server name, QPS and burst forced;
  - wrapping that client in a helm client with fixed options;
  - the five operations: install or upgrade, roll back, list, get, and get values.

Modules:

| file | module | contents |
|---|---|---|
| `wrappers.dfy` | `Wrappers` | `Option`, `Result` |
| `filepath.dfy` | `FilePath` | Go's `filepath.Clean` and `filepath.Join` on a '/'-separated system, and lemmas about clean rooted paths |
| `kube.dfy` | `Kube` | the client-go values this code touches; `RestConfig`, a `*rest.Config` shared by reference; `ClientGo`, the client-go entry points as a record of functions |
| `cache_dir.dfy` | `CacheDir` | `strings.Replace(…, 1)`, the sanitiser, `computeDiscoverCacheDir` |
| `client_getter.dfy` | `ClientGetter` | the `RESTClientGetter` class and the cache layout |
| `helm.dfy` | `Helm` | client construction, `GetHelmClient` and the five operations |

Foreign code is modelled as fields holding functions:
- client-go, with apimachinery's `yaml.ToJSON` and `encoding/json`'s `json.Unmarshal`, is `Kube.ClientGo`;
- helm's client and `strvals.ToYAML` are in `Helm.HelmLib`.

Every lemma quantifies over these records, so each property holds whatever the library
does. A library constructor that only wraps its arguments (`kubernetes.NewForConfig`,
`NewClientFromRestConf`, `disk.NewCachedDiscoveryClientForConfig`) is a function that
says whether it fails. On success the model builds a value that records those arguments.

The code that updates state in place is imperative Dafny:
- `RESTClientGetter` is a class;
- `ToDiscoveryClient` writes `Burst` into the `RestConfig` object it obtained, and that
  object may be the getter's stored config;
- `BuildK8sClient` assigns QPS, Burst, Host and the TLS server name one after another on a
  new `RestConfig`.

Each of these methods is proved equal to a specification function: `DiscoveryFrom`,
`BuildK8sClientSpec`, `ByKubeConfigSpec` or `GetHelmClientSpec`. The properties are
lemmas about those functions.

The five operations are chains of early returns, so they are functions. Each one returns
its outcome together with the foreign calls it made, in order (`Traced`). That list is
how "which steps ran, and with what" is stated. `RanInOrder` says two things about a run:
- the calls follow a plan of steps, and every call before the last succeeded;
- the run either failed at its last call or carried out the whole plan.

Behaviour of the code that is easy to misread:
- The sanitiser keeps `(` and `)` besides letters, digits, `_`, `/` and `.`. The regular
  expression is `[^(\w/.)]`, whose class also holds the parentheses.
- The derivation does not prevent path traversal. `..` survives sanitising, and
  `ClientGetter.DotDotServerNameEscapes` shows the server name `..` putting the catalogue
  cache in `/tmp/.helmcache` itself.
- The discovery cache is keyed on the config's TLS server name, not on its host. An empty
  server name puts the cache in `/tmp/.helmcache/discovery` itself, shared by every such
  cluster (`ClientGetter.EmptyServerNameSharesDirectory`).
- The scheme is removed wherever its first occurrence is, not only as a prefix. Two hosts
  that differ only in their scheme share a directory when no other scheme marker follows
  (`CacheDir.CacheDirIgnoresScheme`). The converse does not hold: because `..` survives
  sanitising, hosts that hold a further marker can still collapse to the same directory.
- Rate limits are not forced in both branches. With an empty kubeconfig, the config
  loaded from `$HOME/.kube/config` is used as it is (`Helm.AmbientKubeConfigIsUnforced`).

## Model

| member | source | states |
|---|---|---|
| FilePath.Clean | helmclient/client_getter.go:91 | Go's lexical `filepath.Clean`: the result is never empty, and a rooted path stays rooted; its behaviour on clean rooted paths is stated by `CleanChild`, `CleanChildParent` and `CleanTrailingSlash` |
| FilePath.Join | helmclient/client_getter.go:91 | `filepath.Join` of two elements: empty exactly when both are, and rooted when the directory is |
| FilePath.CleanTrailingSlash | helmclient/client_getter.go:91 | an empty last element adds nothing: `Join(dir, "")` is the cleaned directory |
| FilePath.CleanChild | helmclient/client_getter.go:91 | joining an ordinary segment under a clean rooted directory gives `dir + "/" + segment`, which is clean |
| FilePath.CleanChildParent | helmclient/client_getter.go:91 | `..` after an ordinary child of a clean rooted directory leads back to that directory |
| CacheDir.FirstIndex | helmclient/client_getter.go:88 | finds the first position where the pattern occurs: the pattern occurs there, nowhere earlier, and the result is None exactly when the pattern is absent |
| CacheDir.ReplaceFirst | helmclient/client_getter.go:88 | `strings.Replace` with n=1: unchanged when the pattern is absent; otherwise only the first occurrence is replaced, wherever it is, the text before and after it is kept, and the length changes by `|rep| - |pat|` |
| CacheDir.StripScheme | helmclient/client_getter.go:88 | the schemeless host is at most 15 runes shorter than the host, and a host with no `https://` or `http://` in it is left unchanged |
| CacheDir.Sanitize | helmclient/client_getter.go:83-90 | the length in runes is kept; every output character is in the kept set; kept characters are unchanged; every other character becomes exactly one `_` |
| CacheDir.ComputeDiscoverCacheDir | helmclient/client_getter.go:86-92 | the cache directory is never empty under a non-empty parent and is absolute under an absolute one; its layout is stated by `CacheDirIsChild`, `CacheDirIgnoresScheme`, `DotDotServerNameEscapes` and `EmptyServerNameSharesDirectory` |
| CacheDir.SanitizeFixedPoints | helmclient/client_getter.go:83-90 | sanitising leaves a string unchanged exactly when all its characters are in the kept set |
| CacheDir.SanitizeIdempotent | helmclient/client_getter.go:90 | sanitising twice equals sanitising once |
| CacheDir.SanitizeConcat | helmclient/client_getter.go:90 | sanitising works character by character: it distributes over concatenation |
| CacheDir.SanitizeOrdinary | helmclient/client_getter.go:90-91 | a schemeless host that is one ordinary path segment stays one after sanitising |
| CacheDir.StripSchemePrefix | helmclient/client_getter.go:88 | for a host with no scheme marker inside, `https://` and `http://` in front are removed, and a host without a scheme is left alone |
| CacheDir.CacheDirIsChild | helmclient/client_getter.go:86-91 | under a clean rooted parent, a host whose schemeless form is one ordinary segment gets the directory `parent + "/" + sanitised host` |
| CacheDir.CacheDirIgnoresScheme | helmclient/client_getter.go:86-91 | `"https://" + h`, `"http://" + h` and `h` give the same directory when `h` holds no scheme marker |
| ClientGetter.CacheRootChildren | helmclient/client_getter.go:50-52 | `https` and `discovery` are plain children of `/tmp/.helmcache`; the discovery parent is clean, and `..` under it is the cache root |
| ClientGetter.CacheDirsSpelled | helmclient/client_getter.go:50-52 | the HTTP cache is `/tmp/.helmcache/https`, and the discovery parent is `/tmp/.helmcache/discovery` |
| ClientGetter.CachedDiscoveryFor | helmclient/client_getter.go:50-54 | for every server name, the library is asked for the discovery cache `computeDiscoverCacheDir("/tmp/.helmcache/discovery", serverName)`, the HTTP cache `/tmp/.helmcache/https` and a TTL of 600 seconds over the given config; the client records exactly those arguments, and the library's error is returned as it is |
| ClientGetter.DiscoveryCacheLayout | helmclient/client_getter.go:48-54 | a successful discovery client caches under `/tmp/.helmcache/discovery/<sanitised TLS server name>` for a one-segment server name, and uses the HTTP cache `/tmp/.helmcache/https` and a TTL of 600 seconds |
| ClientGetter.DotDotServerNameEscapes | helmclient/client_getter.go:50-52 | the server name `..` makes the discovery cache directory `/tmp/.helmcache` itself |
| ClientGetter.EmptyServerNameSharesDirectory | helmclient/client_getter.go:50-52 | an empty TLS server name makes the discovery cache directory `/tmp/.helmcache/discovery` itself |
| ClientGetter.RESTClientGetter.constructor | helmclient/client_getter.go:21-27 | NewRESTClientGetter keeps the namespace, the kubeconfig bytes and the stored config as given |
| ClientGetter.RESTClientGetter.ToRESTConfig | helmclient/client_getter.go:30-36 | returns the stored config object itself when there is one; otherwise it decodes the kubeconfig bytes into a new config object and passes the library's error through |
| ClientGetter.RESTClientGetter.DiscoveryFrom | helmclient/client_getter.go:39-54 | the discovery client's config has Burst 100; with a stored config the result is `CachedDiscoveryFor` that config with Burst 100, otherwise `CachedDiscoveryFor` the decoded kubeconfig with Burst 100, and a decoding error is returned as it is |
| ClientGetter.RESTClientGetter.ToDiscoveryClient | helmclient/client_getter.go:39-57 | sets Burst to 100 on the obtained config, in place, so a stored config is changed and nothing else in it; the result is `DiscoveryFrom` of the config it had before |
| ClientGetter.RESTClientGetter.ToRESTMapper | helmclient/client_getter.go:59-68 | a shortcut expander over the discovery client, or the discovery error unchanged; it has the same effect on the stored config as ToDiscoveryClient |
| ClientGetter.RESTClientGetter.ToRawKubeConfigLoader | helmclient/client_getter.go:70-80 | the override's context namespace is the getter's namespace, the cluster defaults are client-go's, and the loading rules fall back to the standard defaults |
| ClientGetter.StoredConfigIsShared | helmclient/client_getter.go:21-33 | a getter built with a stored config, whatever its namespace and kubeconfig bytes, returns exactly that object |
| Helm.BuildK8sClientSpec | helm.go:175-206 | what BuildK8sClient does, as a value; its properties are `BuildK8sClientForcesFields` and `BuildK8sClientInOrder` |
| Helm.ByKubeConfigSpec | helm.go:208-233 | what BuildK8sClientByKubeConfig does, as a value; its properties are `AmbientKubeConfigIsUnforced`, `DocumentKubeConfigIsForced` and `ClientPhaseInOrder` |
| Helm.GetHelmClientSpec | helm.go:139-164 | what GetHelmClient does, as a value; its properties are `GetHelmClientInOrder` and `GetHelmClientOptions` |
| Helm.BuildK8sClient | helm.go:175-206 | the imperative builder yields the config, and the calls, of `BuildK8sClientSpec`; on success the config object is new and the clientset is built from it |
| Helm.BuildK8sClientByKubeConfig | helm.go:208-233 | the imperative branch yields the config, and the calls, of `ByKubeConfigSpec`; on success the config object is new |
| Helm.GetHelmClient | helm.go:139-164 | yields the client, and the calls, of `GetHelmClientSpec` |
| Helm.BuildK8sClientForcesFields | helm.go:176-199 | the first call converts the caller's v1 document; on success the config is the one the library builds from the converted document with the overrides Server and TLSServerName, and then QPS and Burst are 1e6, Host is the server and the TLS server name is the given one, whatever the document said; the other fields are the library's; the library was given the overrides Server and TLSServerName; the clientset is built from the forced config |
| Helm.AmbientKubeConfigIsUnforced | helm.go:211-220 | with an empty kubeconfig the config comes from `$HOME/.kube/config` and is returned as loaded; no overrides are asked for |
| Helm.DocumentKubeConfigIsForced | helm.go:221-232 | a kubeconfig document is turned into JSON first; on success the JSON is unmarshalled, the decoded document is converted, and the result is BuildK8sClient's on that decoded document; the overrides were asked for and QPS, Burst, Host and the TLS server name are forced |
| Helm.BuildK8sClientInOrder | helm.go:176-205 | convert, build the config, then create the client; the run stops at the first failure and reports its error. A conversion error ends the run after the conversion call; a build error ends it after the conversion and the build with the overrides, and is returned as it is |
| Helm.AmbientInOrder | helm.go:211-220 | load the ambient file, then create the client; the run stops at the first failure and reports its error |
| Helm.DocumentInOrder | helm.go:221-232 | to JSON, unmarshal, then BuildK8sClient's steps; the run stops at the first failure and reports its error |
| Helm.ClientPhaseInOrder | helm.go:208-233 | building the Kubernetes client follows the plan of its branch, stops at the first failure and reports its error |
| Helm.GetHelmClientInOrder | helm.go:139-164 | the client phase, then NewClientFromRestConf; the run stops at the first failure and returns its error unchanged |
| Helm.GetHelmClientOptions | helm.go:144-156 | the helm client uses the caller's namespace, RepositoryCache `/tmp/.helmcache`, RepositoryConfig `/tmp/.helmrepo`, debug and linting on, and the config the client phase built |
| Helm.InstallOrUpgradeChart | helm.go:26-68 | the install operation with its calls; its properties are `InstallNeedsSet`, `InstallInOrder` and `InstallChartSpecFields` |
| Helm.InstallWithClient | helm.go:36-66 | the install operation once the client exists; its properties are `InstallWithClientInOrder` and `InstallWithClientSpecFields` |
| Helm.InstallChartSpec | helm.go:47-58 | the install spec; its fields are stated by `InstallChartSpecFields` |
| Helm.RollbackChartSpec | helm.go:71-79 | the rollback spec; its fields are stated by `RollBackInOrder` |
| Helm.RollBackRelease | helm.go:70-92 | the rollback operation with its calls; its properties are stated by `RollBackInOrder` |
| Helm.GetReleaseList | helm.go:94-107 | the list operation with its calls; its properties are stated by `GetReleaseListPassesThrough` |
| Helm.GetRelease | helm.go:109-122 | the get operation with its calls; its properties are stated by `GetReleasePassesThrough` |
| Helm.GetReleaseValues | helm.go:124-137 | the values operation with its calls; its properties are stated by `GetReleaseValuesPassesThrough` |
| Helm.InstallNeedsSet | helm.go:27-30 | without a `set` argument the result is the fixed "miss 'set'" error, and no call at all is made |
| Helm.InstallWithClientInOrder | helm.go:36-66 | once the client exists: repository, set string, install, stopping at the first failure. A repository error is returned as it is after that one call; after a successful repository call, a set string that does not compile gives exactly the fixed "pramas fomrt error" after the repository and ToYAML calls |
| Helm.InstallInOrder | helm.go:26-68 | with `set`: client, repository, set string, install, in that order, stopping at the first failure. Once the client is built, a repository error is returned as it is with no later call, and a set string that does not compile after a successful repository call gives exactly the fixed message, after the client's calls, the repository call on the built client and ToYAML; every other error is returned as it is |
| Helm.InstallWithClientSpecFields | helm.go:37-62 | when the install runs, it is the third call; the repository call got the caller's entry; the install spec has the fields listed for InstallChartSpecFields |
| Helm.InstallChartSpecFields | helm.go:26-68 | a client error is returned as it is, with no further call; once the client exists, the repository was added and the set string compiles, the install runs. When it runs, the calls are the client's, then repository (the caller's entry), set string and install, all on the client that was built; the spec has release, version and namespace from the caller, chart `<repo name>/<chart>`, the compiled set string as values, UpgradeCRDs, ReuseValues and Wait true, timeout 600 s and MaxHistory 20; its result is the operation's result |
| Helm.RollBackInOrder | helm.go:70-92 | client, then rollback; the run stops at the first failure and returns its error unchanged. A client error means no further call; once the client exists, the rollback is made on that client, whatever its outcome, with a spec named `<repo>/<chart>`, UpgradeCRDs and Wait true, 600 s, MaxHistory 20, no version and ReuseValues false, and the operation fails exactly when it does |
| Helm.GetReleaseListPassesThrough | helm.go:94-107 | a client error is returned unchanged, with no further call; otherwise the one further call is the list on the client that was built, and the result is what it reports, list or error |
| Helm.GetReleasePassesThrough | helm.go:109-122 | a client error is returned unchanged, with no further call; otherwise the one further call is the get of the caller's release name on the client that was built, and the result is what it reports, release or error |
| Helm.GetReleaseValuesPassesThrough | helm.go:124-137 | a client error is returned unchanged, with no further call; otherwise the one further call is the values of the caller's release name, with the caller's `allValues` flag, on the client that was built, and the result is what it reports, values or error |

## Left out

- Foreign code is modelled only through what it returns, never through what it does:
  - `strvals.ToYAML` is an opaque `string -> Result<string, Error>`; its override grammar is not modelled.
  - The helm client's install, upgrade, rollback, list, get, values, history pruning and release states are behind `helmclient.Client`, which is not part of this model.
  - client-go (`RESTConfigFromKubeConfig`, `BuildConfigFromFlags`, `ConvertToVersion`, `NewDefaultClientConfig(…).ClientConfig()`, `kubernetes.NewForConfig`), apimachinery's `yaml.ToJSON` and Go's `encoding/json` `json.Unmarshal` are abstract and may fail; all seven are fields of `Kube.ClientGo`. The trace of calls is the model's record of these calls; the program keeps no such list.
- The TTL and refresh behaviour of the disk discovery cache, and the deferred REST mapper and shortcut expander, are library internals. Only the arguments passed to them are modelled.
- Reading `$HOME` and the file system: the home directory is the parameter `home`.
- QPS is a float32 in client-go. It is modelled as the integer 1000000, which float32 represents exactly.
- The unused `out io.Writer` parameters are dropped. So is the `DebugLog` function in the helm options, which does nothing.
- `context.Background()` and the nil options passed to the helm client's InstallOrUpgradeChart are dropped.
- A `rest.Config` keeps only the fields this code reads or writes: host, TLS server name, QPS and burst. All its other fields are one opaque `credentials` string that the code passes along unchanged.
- The values a release reports (`map[string]interface{}`, nested) are an opaque `map<string, string>` that the model only passes through; their nesting and value types are not modelled.
- Helm.GetHelmClient: the helm client records a copy of the config's fields, not the shared `*rest.Config` object itself. The model does not connect that config to a `RESTClientGetter`: the helm client builds its own getter inside `NewClientFromRestConf`, which is not part of this model, so whether that getter's `ToDiscoveryClient` later sets Burst to 100 on the same object, replacing the 1e6 that `BuildK8sClientForcesFields` states, is not captured.
- Strings are sequences of runes, one `char` per rune. Invalid UTF-8 in a host is not modelled. All patterns involved are ASCII.
- `filepath.Join` is modelled only for a '/'-separated system. Windows volume names and separators are not modelled.
- ClientGetter.DiscoveryCacheLayout: gives the directory in closed form only for server names whose schemeless form is a single ordinary path segment. For other names the model computes `Join` exactly, and `CachedDiscoveryFor` states for every name that the directory is `computeDiscoverCacheDir` under `/tmp/.helmcache/discovery`, but no closed form is stated. `DotDotServerNameEscapes` covers the `..` case and `EmptyServerNameSharesDirectory` the empty one.
- CacheDir.CacheDirIgnoresScheme: covers only hosts with no further `https://` or `http://` inside them. For other hosts the code removes the first occurrence found, so scheme and host can interact.
- helm_test.go is left out. It holds integration tests against a live cluster that only log.

=== FILE: cache_dir.dfy ===
/**
 * The directory under which the discovery client caches a cluster's API catalogue
 * (computeDiscoverCacheDir): the host loses its first "https://" and then its first
 * "http://", every character outside a small safe set becomes '_', and the result is
 * joined under the parent directory. Strings are sequences of runes, one char per rune.
 */
module CacheDir {
  import opened Wrappers
  import opened FilePath

  /** `pat` occurs in `s` starting at index `i`. */
  predicate OccursAt(s: string, pat: string, i: int) {
    0 <= i && i + |pat| <= |s| && s[i..i + |pat|] == pat
  }

  predicate Absent(s: string, pat: string) {
    forall j :: 0 <= j <= |s| ==> !OccursAt(s, pat, j)
  }

  lemma OccursAtTail(s: string, pat: string)
    requires |s| > 0
    ensures forall j :: 1 <= j ==> (OccursAt(s, pat, j) <==> OccursAt(s[1..], pat, j - 1))
  {
    forall j | 1 <= j
      ensures OccursAt(s, pat, j) <==> OccursAt(s[1..], pat, j - 1)
    {
      if j + |pat| <= |s| {
        assert s[1..][j - 1..j - 1 + |pat|] == s[j..j + |pat|];
      }
    }
  }

  /** strings.Index: the first position at which `pat` occurs in `s`. */
  function FirstIndex(s: string, pat: string): (r: Option<nat>)
    ensures r.Some? ==> OccursAt(s, pat, r.value)
    ensures r.Some? ==> forall j :: 0 <= j < r.value ==> !OccursAt(s, pat, j)
    ensures r.None? <==> Absent(s, pat)
    decreases |s|
  {
    if |pat| > |s| then None
    else if s[..|pat|] == pat then Some(0)
    else
      OccursAtTail(s, pat);
      match FirstIndex(s[1..], pat)
      case None => None
      case Some(i) => Some(i + 1)
  }

  /** strings.Replace(s, pat, rep, 1): only the first occurrence is replaced, wherever it is. */
  function ReplaceFirst(s: string, pat: string, rep: string): (r: string)
    ensures Absent(s, pat) ==> r == s
    ensures !Absent(s, pat) ==> |r| == |s| - |pat| + |rep|
    ensures forall i :: OccursAt(s, pat, i) && (forall j :: 0 <= j < i ==> !OccursAt(s, pat, j)) ==>
              r == s[..i] + rep + s[i + |pat|..]
  {
    match FirstIndex(s, pat)
    case None => s
    case Some(i) => s[..i] + rep + s[i + |pat|..]
  }

  /** The host with its first "https://" and then its first "http://" removed. */
  function StripScheme(host: string): (r: string)
    ensures |host| - 15 <= |r| <= |host|
    ensures Absent(host, "https://") && Absent(host, "http://") ==> r == host
  {
    ReplaceFirst(ReplaceFirst(host, "https://", ""), "http://", "")
  }

  /** The characters the sanitiser keeps: those of the regular-expression class `[(\w/.)]`. */
  predicate IsKept(c: char) {
    ('a' <= c <= 'z') || ('A' <= c <= 'Z') || ('0' <= c <= '9')
    || c == '_' || c == '/' || c == '.' || c == '(' || c == ')'
  }

  /** ReplaceAllString of `[^(\w/.)]` with "_": one '_' per rejected character. */
  function Sanitize(s: string): (r: string)
    ensures |r| == |s|
    ensures forall i :: 0 <= i < |r| ==> IsKept(r[i])
    ensures forall i :: 0 <= i < |s| && IsKept(s[i]) ==> r[i] == s[i]
    ensures forall i :: 0 <= i < |s| && !IsKept(s[i]) ==> r[i] == '_'
  {
    if s == [] then []
    else [if IsKept(s[0]) then s[0] else '_'] + Sanitize(s[1..])
  }

  /** The cache directory of `host` under `parentDir`: never empty when the parent is not, and absolute when the parent is. */
  function ComputeDiscoverCacheDir(parentDir: string, host: string): (r: string)
    ensures parentDir != "" ==> r != ""
    ensures |parentDir| > 0 && parentDir[0] == '/' ==> r[0] == '/'
  {
    Join(parentDir, Sanitize(StripScheme(host)))
  }

  /** Sanitising leaves a string of kept characters alone, and only such a string. */
  lemma SanitizeFixedPoints(s: string)
    ensures Sanitize(s) == s <==> forall i :: 0 <= i < |s| ==> IsKept(s[i])
  {
    if forall i :: 0 <= i < |s| ==> IsKept(s[i]) {
      assert forall i :: 0 <= i < |s| ==> Sanitize(s)[i] == s[i];
    }
  }

  lemma SanitizeIdempotent(s: string)
    ensures Sanitize(Sanitize(s)) == Sanitize(s)
  {
    SanitizeFixedPoints(Sanitize(s));
  }

  /** Sanitising acts on each character alone, so it distributes over concatenation. */
  lemma SanitizeConcat(a: string, b: string)
    ensures Sanitize(a + b) == Sanitize(a) + Sanitize(b)
  {
    var l, r := Sanitize(a + b), Sanitize(a) + Sanitize(b);
    forall i | 0 <= i < |a + b| ensures l[i] == r[i] {
      if i < |a| { assert (a + b)[i] == a[i]; } else { assert (a + b)[i] == b[i - |a|]; }
    }
  }

  /** A host whose schemeless form is one ordinary path segment keeps that property after sanitising. */
  lemma SanitizeOrdinary(s: string)
    requires IsOrdinary(s)
    ensures IsOrdinary(Sanitize(s))
  {
    var r := Sanitize(s);
    assert forall i :: 0 <= i < |s| ==> (r[i] == '/' ==> s[i] == '/') && (r[i] == '.' ==> s[i] == '.');
  }

  /** The scheme "https://" and "http://" on a host that has no other scheme marker give the same host. */
  lemma {:induction false} StripSchemePrefix(h: string)
    requires Absent(h, "https://") && Absent(h, "http://")
    ensures StripScheme("https://" + h) == h
    ensures StripScheme("http://" + h) == h
    ensures StripScheme(h) == h
  {
    var s1, s2 := "https://" + h, "http://" + h;
    assert OccursAt(s1, "https://", 0);
    assert s1[..0] + "" + s1[8..] == h;
    assert OccursAt(s2, "http://", 0);
    assert s2[..0] + "" + s2[7..] == h;
    assert Absent(s2, "https://") by {
      forall j ensures !OccursAt(s2, "https://", j) {
        if 0 <= j < 7 && j + 8 <= |s2| {
          if j == 0 {
            assert s2[j..j + 8][4] == ':';
          } else {
            assert s2[j..j + 8][0] == s2[j] != 'h';
          }
        } else if 7 <= j && OccursAt(s2, "https://", j) {
          assert s2[j..j + 8] == h[j - 7..j - 7 + 8];
          assert OccursAt(h, "https://", j - 7);
        }
      }
    }
  }

  /**
   * For an ordinary clean rooted parent, a host whose schemeless form is one path segment
   * gets its own child directory: parent + "/" + sanitised host.
   */
  lemma CacheDirIsChild(parentDir: string, host: string)
    requires |parentDir| > 0 && parentDir[0] == '/' && parentDir != "/" && Clean(parentDir) == parentDir
    requires IsOrdinary(StripScheme(host))
    ensures ComputeDiscoverCacheDir(parentDir, host) == parentDir + "/" + Sanitize(StripScheme(host))
  {
    SanitizeOrdinary(StripScheme(host));
    CleanChild(parentDir, Sanitize(StripScheme(host)));
  }

  /** The cache directory does not depend on whether the host is written with "https://", "http://" or no scheme. */
  lemma CacheDirIgnoresScheme(parentDir: string, h: string)
    requires Absent(h, "https://") && Absent(h, "http://")
    ensures ComputeDiscoverCacheDir(parentDir, "https://" + h) == ComputeDiscoverCacheDir(parentDir, h)
    ensures ComputeDiscoverCacheDir(parentDir, "http://" + h) == ComputeDiscoverCacheDir(parentDir, h)
  {
    StripSchemePrefix(h);
  }
}

=== FILE: client_getter.dfy ===
/**
 * RESTClientGetter: hands helm a REST config, a disk-cached discovery client, a REST
 * mapper and a kubeconfig loader, built from either a stored `*rest.Config` or raw
 * kubeconfig bytes.
 */
module ClientGetter {
  import opened Wrappers
  import opened FilePath
  import opened CacheDir
  import opened Kube

  /** /tmp/.helmcache, written as its two segments. */
  const CacheRoot: string := "/" + "tmp" + "/" + ".helmcache"
  /** The burst ToDiscoveryClient sets, enough for about 50 discovery requests at once. */
  const DiscoveryBurst: int := 100
  /** Ten minutes. */
  const DiscoveryTTLSeconds: nat := 600

  datatype CachedDiscoveryClient = CachedDiscoveryClient(args: DiscoveryArgs)

  /** A shortcut expander over a deferred discovery mapper, both over the same discovery client. */
  datatype RestMapper = ShortcutExpander(discovery: CachedDiscoveryClient)

  /** clientcmd.NewNonInteractiveDeferredLoadingClientConfig(loadingRules, overrides). */
  datatype RawKubeConfigLoader = DeferredLoadingClientConfig(loadingRules: LoadingRules, overrides: ConfigOverrides)

  /**
   * The directories ToDiscoveryClient derives from the cache root: "https" and "discovery"
   * are plain children of it, the discovery parent is a clean path, and ".." under it is
   * the cache root again.
   */
  lemma CacheRootChildren()
    ensures Join(CacheRoot, "https") == CacheRoot + "/" + "https"
    ensures Join(CacheRoot, "discovery") == CacheRoot + "/" + "discovery"
    ensures Clean(Join(CacheRoot, "discovery")) == Join(CacheRoot, "discovery")
    ensures Clean(Join(CacheRoot, "discovery") + "/" + "..") == CacheRoot
  {
    CleanThreeSegments("tmp", ".helmcache", "https");
    CleanThreeSegments("tmp", ".helmcache", "discovery");
  }

  /** The two directories spelled out. */
  lemma CacheDirsSpelled()
    ensures Join(CacheRoot, "https") == "/tmp/.helmcache/https"
    ensures Join(CacheRoot, "discovery") == "/tmp/.helmcache/discovery"
  {
    CacheRootChildren();
    CacheRootSpelling();
  }

  lemma CacheRootSpelling()
    ensures CacheRoot + "/" + "https" == "/tmp/.helmcache/https"
    ensures CacheRoot + "/" + "discovery" == "/tmp/.helmcache/discovery"
  {
  }

  /**
   * What disk.NewCachedDiscoveryClientForConfig yields for the directories and TTL
   * ToDiscoveryClient passes: the library is asked, whatever the server name, for the
   * discovery cache that computeDiscoverCacheDir derives under /tmp/.helmcache/discovery,
   * the HTTP cache /tmp/.helmcache/https and ten minutes; its error is returned as it is.
   */
  function CachedDiscoveryFor(lib: ClientGo, config: ConfigFields): (r: Result<CachedDiscoveryClient, Error>)
    ensures var args := DiscoveryArgs(config, ComputeDiscoverCacheDir("/tmp/.helmcache/discovery", config.serverName),
                                      "/tmp/.helmcache/https", 600);
      && (r.Ok? <==> lib.newCachedDiscoveryClient(args).None?)
      && (r.Ok? ==> r.value.args == args)
      && (r.Err? ==> lib.newCachedDiscoveryClient(args) == Some(r.error))
  {
    CacheDirsSpelled();
    var args := DiscoveryArgs(config, ComputeDiscoverCacheDir(Join(CacheRoot, "discovery"), config.serverName),
                              Join(CacheRoot, "https"), DiscoveryTTLSeconds);
    match lib.newCachedDiscoveryClient(args)
    case Some(e) => Err(e)
    case None => Ok(CachedDiscoveryClient(args))
  }

  /**
   * The HTTP cache is /tmp/.helmcache/https, and the discovery cache of a server name that
   * is one ordinary path segment is its own directory right under /tmp/.helmcache/discovery;
   * it is keyed on the TLS server name, so the host plays no part in it.
   */
  lemma DiscoveryCacheLayout(lib: ClientGo, config: ConfigFields)
    requires CachedDiscoveryFor(lib, config).Ok?
    requires IsOrdinary(StripScheme(config.serverName))
    ensures var args := CachedDiscoveryFor(lib, config).value.args;
      && args.discoveryCacheDir == CacheRoot + "/" + "discovery" + "/" + Sanitize(StripScheme(config.serverName))
      && args.httpCacheDir == CacheRoot + "/" + "https"
      && args.ttlSeconds == 600
  {
    CacheRootChildren();
    CacheDirIsChild(Join(CacheRoot, "discovery"), config.serverName);
  }

  /**
   * The derivation does not keep a server name inside the discovery directory: the
   * server name ".." puts the catalogue cache in the cache root itself.
   */
  lemma DotDotServerNameEscapes()
    ensures ComputeDiscoverCacheDir(Join(CacheRoot, "discovery"), "..") == CacheRoot
  {
    var serverName := "..";
    assert Absent(serverName, "https://") && Absent(serverName, "http://");
    SanitizeFixedPoints(serverName);
    CacheRootChildren();
  }

  /**
   * An empty TLS server name (the usual case for a config loaded as it is) puts the
   * catalogue cache in /tmp/.helmcache/discovery itself, shared by every such cluster.
   */
  lemma EmptyServerNameSharesDirectory()
    ensures ComputeDiscoverCacheDir(Join(CacheRoot, "discovery"), "") == Join(CacheRoot, "discovery")
  {
    CacheRootChildren();
    var parent := Join(CacheRoot, "discovery");
    assert Sanitize(StripScheme("")) == "";
    assert parent + "/" + "" == parent + "/";
    CleanTrailingSlash(parent);
  }

  class RESTClientGetter {
    const namespace: string
    const kubeConfig: Bytes
    const restConfig: RestConfig?

    /** NewRESTClientGetter. */
    constructor (namespace: string, kubeConfig: Bytes, restConfig: RestConfig?)
      ensures this.namespace == namespace && this.kubeConfig == kubeConfig && this.restConfig == restConfig
    {
      this.namespace := namespace;
      this.kubeConfig := kubeConfig;
      this.restConfig := restConfig;
    }

    /** The stored config itself when there is one; otherwise a new config decoded from the kubeconfig bytes. */
    method ToRESTConfig(lib: ClientGo) returns (r: Result<RestConfig, Error>)
      ensures restConfig != null ==> r == Ok(restConfig)
      ensures restConfig == null ==> r.Ok? == lib.restConfigFromKubeConfig(kubeConfig).Ok?
      ensures restConfig == null && r.Err? ==> r.error == lib.restConfigFromKubeConfig(kubeConfig).error
      ensures restConfig == null && r.Ok? ==>
                fresh(r.value) && r.value.Fields() == lib.restConfigFromKubeConfig(kubeConfig).value
    {
      if restConfig != null {
        return Ok(restConfig);
      }
      var decoded := lib.restConfigFromKubeConfig(kubeConfig);
      if decoded.Err? {
        return Err(decoded.error);
      }
      var config := new RestConfig(decoded.value);
      r := Ok(config);
    }

    /** What ToDiscoveryClient yields when the stored config, if any, holds `stored`. */
    function DiscoveryFrom(lib: ClientGo, stored: Option<ConfigFields>): (r: Result<CachedDiscoveryClient, Error>)
      ensures r.Ok? ==> r.value.args.config.burst == DiscoveryBurst
      ensures stored.Some? ==> r == CachedDiscoveryFor(lib, stored.value.(burst := DiscoveryBurst))
      ensures stored.None? && lib.restConfigFromKubeConfig(kubeConfig).Ok? ==>
                r == CachedDiscoveryFor(lib, lib.restConfigFromKubeConfig(kubeConfig).value.(burst := DiscoveryBurst))
      ensures stored.Some? && r.Ok? ==> r.value.args.config == stored.value.(burst := DiscoveryBurst)
      ensures stored.None? && lib.restConfigFromKubeConfig(kubeConfig).Err? ==> r == Err(lib.restConfigFromKubeConfig(kubeConfig).error)
      ensures stored.None? && r.Ok? ==> r.value.args.config == lib.restConfigFromKubeConfig(kubeConfig).value.(burst := DiscoveryBurst)
    {
      var config := if stored.Some? then Ok(stored.value) else lib.restConfigFromKubeConfig(kubeConfig);
      match config
      case Err(e) => Err(e)
      case Ok(f) => CachedDiscoveryFor(lib, f.(burst := DiscoveryBurst))
    }

    /**
     * Sets Burst to 100 on the config it obtained, in place: a stored config is changed for
     * every holder of it. The discovery cache is keyed on that config's TLS server name.
     */
    method ToDiscoveryClient(lib: ClientGo) returns (r: Result<CachedDiscoveryClient, Error>)
      modifies restConfig
      ensures restConfig != null ==> restConfig.Fields() == old(restConfig.Fields()).(burst := DiscoveryBurst)
      ensures r == DiscoveryFrom(lib, if restConfig != null then Some(old(restConfig.Fields())) else None)
    {
      var obtained := ToRESTConfig(lib);
      if obtained.Err? {
        return Err(obtained.error);
      }
      var config := obtained.value;
      config.burst := DiscoveryBurst;

      var cacheDir := CacheRoot;
      var httpCacheDir := Join(cacheDir, "https");
      var discoveryCacheDir := ComputeDiscoverCacheDir(Join(cacheDir, "discovery"), config.serverName);

      var args := DiscoveryArgs(config.Fields(), discoveryCacheDir, httpCacheDir, 10 * 60);
      var failure := lib.newCachedDiscoveryClient(args);
      if failure.Some? {
        return Err(failure.value);
      }
      r := Ok(CachedDiscoveryClient(args));
    }

    /** A shortcut expander over a deferred mapper over the discovery client; a discovery error is returned as it is. */
    method ToRESTMapper(lib: ClientGo) returns (r: Result<RestMapper, Error>)
      modifies restConfig
      ensures restConfig != null ==> restConfig.Fields() == old(restConfig.Fields()).(burst := DiscoveryBurst)
      ensures var d := DiscoveryFrom(lib, if restConfig != null then Some(old(restConfig.Fields())) else None);
        r == if d.Err? then Err(d.error) else Ok(ShortcutExpander(d.value))
    {
      var discovery := ToDiscoveryClient(lib);
      if discovery.Err? {
        return Err(discovery.error);
      }
      r := Ok(ShortcutExpander(discovery.value));
    }

    /** A deferred loader over the standard loading rules; only the context namespace is overridden. */
    function ToRawKubeConfigLoader(lib: ClientGo): (loader: RawKubeConfigLoader)
      ensures loader.overrides.contextNamespace == namespace
      ensures loader.overrides.clusterDefaults == lib.clusterDefaults
      ensures loader.loadingRules.fallback == StandardDefaults
    {
      var loadingRules := lib.defaultLoadingRules.(fallback := StandardDefaults);
      DeferredLoadingClientConfig(loadingRules, ConfigOverrides(lib.clusterDefaults, namespace))
    }
  }

  /** The stored config is handed out as it is, whatever the namespace and kubeconfig bytes: nothing is decoded. */
  method StoredConfigIsShared(lib: ClientGo, namespace: string, kubeConfig: Bytes, config: RestConfig) returns (r: Result<RestConfig, Error>)
    ensures r == Ok(config)
  {
    var getter := new RESTClientGetter(namespace, kubeConfig, config);
    r := getter.ToRESTConfig(lib);
  }
}

=== FILE: filepath.dfy ===
/**
 * Go's `path/filepath` Clean and Join on a system whose separator is '/'.
 * Clean works on the path's segments: empty and "." segments vanish, ".." removes the
 * segment before it (or, at the root, vanishes), and the remainder is re-joined with one
 * '/' between segments; an empty outcome becomes ".".
 */
module FilePath {

  /** The segments of `p` between its '/' characters: "a//b" gives ["a", "", "b"], "" gives [""]. */
  function Split(p: string): (segs: seq<string>)
    ensures |segs| >= 1
  {
    if p == [] then [""]
    else
      var rest := Split(p[1..]);
      if p[0] == '/' then [""] + rest
      else [[p[0]] + rest[0]] + rest[1..]
  }

  /** A segment that Clean keeps as it is and that names a child directory. */
  predicate IsOrdinary(seg: string) {
    seg != "" && seg != "." && seg != ".." && '/' !in seg
  }

  /** One segment's effect on the stack of segments kept so far. */
  function Step(stack: seq<string>, seg: string, rooted: bool): seq<string> {
    if seg == "" || seg == "." then stack
    else if seg == ".." then
      if |stack| > 0 && stack[|stack| - 1] != ".." then stack[..|stack| - 1]
      else if rooted then stack
      else stack + [".."]
    else stack + [seg]
  }

  /** The segments that survive, processing `segs` from left to right. */
  function Resolve(segs: seq<string>, rooted: bool): seq<string> {
    if segs == [] then []
    else Step(Resolve(segs[..|segs| - 1], rooted), segs[|segs| - 1], rooted)
  }

  /** The segments re-joined with a single '/' between neighbours. */
  function JoinSlash(stack: seq<string>): string {
    if stack == [] then ""
    else if |stack| == 1 then stack[0]
    else JoinSlash(stack[..|stack| - 1]) + "/" + stack[|stack| - 1]
  }

  /** Never empty, and a rooted path stays rooted. */
  function Clean(p: string): (r: string)
    ensures r != ""
    ensures |p| > 0 && p[0] == '/' ==> r[0] == '/'
  {
    var rooted := |p| > 0 && p[0] == '/';
    var body := JoinSlash(Resolve(Split(p), rooted));
    var out := if rooted then "/" + body else body;
    if out == "" then "." else out
  }

  /** filepath.Join(dir, name): the elements from the first non-empty one on, joined by '/', then cleaned. */
  function Join(dir: string, name: string): (r: string)
    ensures r == "" <==> dir == "" && name == ""
    ensures |dir| > 0 && dir[0] == '/' ==> r[0] == '/'
  {
    if dir == "" && name == "" then ""
    else if dir == "" then Clean(name)
    else Clean(dir + "/" + name)
  }

  lemma {:induction false} SplitAppend(a: string, b: string)
    ensures Split(a + "/" + b) == Split(a) + Split(b)
  {
    if a == [] {
      assert a + "/" + b == "/" + b;
      assert ("/" + b)[1..] == b;
    } else {
      assert (a + "/" + b)[0] == a[0];
      assert (a + "/" + b)[1..] == a[1..] + "/" + b;
      SplitAppend(a[1..], b);
    }
  }

  lemma {:induction false} SplitSegment(seg: string)
    requires '/' !in seg
    ensures Split(seg) == [seg]
  {
    if seg != [] {
      assert '/' !in seg[1..] by {
        forall i | 0 <= i < |seg[1..]| ensures seg[1..][i] != '/' {
          assert seg[1..][i] == seg[i + 1];
        }
      }
      SplitSegment(seg[1..]);
      assert [seg[0]] + seg[1..] == seg;
    }
  }

  /** A rooted path made of one ordinary segment is clean. */
  lemma CleanRootChild(seg: string)
    requires IsOrdinary(seg)
    ensures Clean("/" + seg) == "/" + seg
  {
    assert "/" + seg == [] + "/" + seg;
    SplitAppend([], seg);
    SplitSegment(seg);
    var segs := Split("/" + seg);
    assert segs == ["", seg];
    assert segs[..1] == [""];
    assert Resolve(segs[..1], true) == [];
    assert Resolve(segs, true) == [seg];
  }

  /** Facts about a clean rooted path other than "/": its resolved segments, and how it is printed. */
  lemma CleanRootedStack(p: string)
    requires |p| > 0 && p[0] == '/' && p != "/" && Clean(p) == p
    ensures var stack := Resolve(Split(p), true); stack != [] && p == "/" + JoinSlash(stack)
  {
  }

  /** Appending an ordinary segment to a clean rooted path (other than "/") gives a clean path. */
  lemma CleanChild(p: string, seg: string)
    requires |p| > 0 && p[0] == '/' && p != "/" && Clean(p) == p
    requires IsOrdinary(seg)
    ensures Clean(p + "/" + seg) == p + "/" + seg
  {
    var q := p + "/" + seg;
    assert q[0] == '/';
    SplitAppend(p, seg);
    SplitSegment(seg);
    var stack := Resolve(Split(p), true);
    CleanRootedStack(p);
    var segs := Split(q);
    assert segs == Split(p) + [seg];
    assert segs[..|segs| - 1] == Split(p);
    assert Resolve(segs, true) == stack + [seg];
    assert (stack + [seg])[..|stack|] == stack;
    var body := JoinSlash(stack + [seg]);
    assert body == JoinSlash(stack) + "/" + seg;
    assert "/" + body == q;
    assert Clean(q) == "/" + body;
  }

  /** An empty last element adds nothing: a trailing '/' on a non-empty path is cleaned away. */
  lemma CleanTrailingSlash(p: string)
    requires p != ""
    ensures Clean(p + "/") == Clean(p)
  {
    SplitAppend(p, "");
    assert p + "/" + "" == p + "/";
    var segs := Split(p + "/");
    assert segs[..|segs| - 1] == Split(p);
    assert (p + "/")[0] == p[0];
  }

  /** A ".." after an ordinary child of a clean rooted path leads back to that path. */
  lemma CleanChildParent(p: string, seg: string)
    requires |p| > 0 && p[0] == '/' && p != "/" && Clean(p) == p
    requires IsOrdinary(seg)
    ensures Clean(p + "/" + seg + "/" + "..") == p
  {
    var q := p + "/" + seg + "/" + "..";
    assert q[0] == '/';
    SplitAppend(p + "/" + seg, "..");
    SplitAppend(p, seg);
    SplitSegment(seg);
    SplitSegment("..");
    var stack := Resolve(Split(p), true);
    CleanRootedStack(p);
    var segs := Split(q);
    assert segs == Split(p) + [seg] + [".."];
    assert segs[..|segs| - 1] == Split(p) + [seg];
    assert (Split(p) + [seg])[..|Split(p)|] == Split(p);
    assert Resolve(Split(p) + [seg], true) == stack + [seg];
    assert Resolve(segs, true) == stack;
  }

  /** Rooted paths of two and three ordinary segments are clean, and ".." under the third leads back to the second. */
  lemma CleanThreeSegments(a: string, b: string, c: string)
    requires IsOrdinary(a) && IsOrdinary(b) && IsOrdinary(c)
    ensures Clean("/" + a + "/" + b) == "/" + a + "/" + b
    ensures Clean("/" + a + "/" + b + "/" + c) == "/" + a + "/" + b + "/" + c
    ensures Clean("/" + a + "/" + b + "/" + c + "/" + "..") == "/" + a + "/" + b
  {
    CleanRootChild(a);
    CleanChild("/" + a, b);
    CleanChild("/" + a + "/" + b, c);
    CleanChildParent("/" + a + "/" + b, c);
  }
}

=== FILE: helm.dfy ===
/**
 * The package-level entry points: build a Kubernetes client from either the ambient
 * kubeconfig or a kubeconfig document (forcing the API server, TLS server name, QPS and
 * burst), wrap it in a helm client, and run one helm operation through it.
 *
 * Every foreign call (client-go, the helm client, the override parser) is a field of
 * `HelmLib`, so every property below holds whatever those calls do. Each modelled entry
 * point also yields the calls it made, in order, so that "which steps ran, with which
 * arguments" can be stated.
 */
module Helm {
  import opened Wrappers
  import opened Kube

  /** defaultQPS and defaultBurst, 1e6: high enough for every expected use. */
  const DefaultQPS: int := 1000000
  const DefaultBurst: int := 1000000

  const RepositoryCache: string := "/tmp/.helmcache"
  const RepositoryConfig: string := "/tmp/.helmrepo"

  /** Every chart operation waits at most 600 seconds and keeps 20 revisions. */
  const ChartTimeoutSeconds: nat := 600
  const ChartMaxHistory: nat := 20

  /** The messages of the two errors this code makes itself, spelled as in the program. */
  const MissingSetError: Error := "pramas fomrt error. miss 'set'"
  const SetFormatError: Error := "pramas fomrt error"

  /** repo.Entry: a chart repository. */
  datatype RepoEntry = RepoEntry(name: string, url: string, username: string, password: string)

  /** helmclient.ChartSpec, restricted to the fields this code sets. */
  datatype ChartSpec = ChartSpec(
    releaseName: string,
    chartName: string,
    version: string,
    namespace: string,
    valuesYaml: string,
    upgradeCRDs: bool,
    reuseValues: bool,
    wait: bool,
    timeoutSeconds: nat,
    maxHistory: nat)

  /** helmclient.Options, without the logger (which discards everything). */
  datatype Options = Options(namespace: string, repositoryCache: string, repositoryConfig: string, debug: bool, linting: bool)

  datatype RestConfClientOptions = RestConfClientOptions(options: Options, restConfig: ConfigFields)

  /** The helm client NewClientFromRestConf builds from its options. */
  datatype HelmClient = HelmClient(options: RestConfClientOptions)

  /** A release as the helm client reports it; this code only passes it on. */
  datatype Release = Release(name: string, namespace: string, revision: int, manifest: string)

  /** A release's values: an opaque stand-in for the nested map the helm client returns, only passed through. */
  type Values = map<string, string>

  /** What BuildK8sClient and BuildK8sClientByKubeConfig return: a typed client and its shared config. */
  datatype K8sClient = K8sClient(clientset: Clientset, config: RestConfig)

  /** A call this code makes into foreign code, with its arguments. */
  datatype Call =
    | BuildConfigFromFlags(masterUrl: string, kubeConfigPath: string)
    | NewForConfig(config: ConfigFields)
    | ToJSON(document: string)
    | Unmarshal(json: string)
    | ConvertToVersion(v1: KubeConfigV1)
    | ClientConfig(internal: KubeConfigInternal, overrides: ConfigOverrides)
    | NewClientFromRestConf(clientOptions: RestConfClientOptions)
    | ClientAddOrUpdateChartRepo(client: HelmClient, entry: RepoEntry)
    | ToYAML(setValues: string)
    | ClientInstallOrUpgradeChart(client: HelmClient, spec: ChartSpec)
    | ClientRollbackRelease(client: HelmClient, spec: ChartSpec)
    | ClientListDeployedReleases(client: HelmClient)
    | ClientGetRelease(client: HelmClient, releaseName: string)
    | ClientGetReleaseValues(client: HelmClient, releaseName: string, allValues: bool)

  /** A call without its arguments: the unit in which the order of steps is stated. */
  datatype Step =
    | BuildConfigFromFlagsStep | NewForConfigStep | ToJSONStep | UnmarshalStep
    | ConvertToVersionStep | ClientConfigStep | NewClientStep | AddRepoStep | ToYAMLStep
    | InstallStep | RollbackStep | ListStep | GetStep | ValuesStep

  /** The foreign code: client-go, the helm client's operations, and strvals.ToYAML. */
  datatype HelmLib = HelmLib(
    kube: ClientGo,
    newClientFromRestConf: RestConfClientOptions -> Option<Error>,
    addOrUpdateChartRepo: (HelmClient, RepoEntry) -> Option<Error>,
    toYAML: string -> Result<string, Error>,
    installOrUpgradeChart: (HelmClient, ChartSpec) -> Result<Release, Error>,
    rollbackRelease: (HelmClient, ChartSpec) -> Option<Error>,
    listDeployedReleases: HelmClient -> Result<seq<Release>, Error>,
    getRelease: (HelmClient, string) -> Result<Release, Error>,
    getReleaseValues: (HelmClient, string, bool) -> Result<Values, Error>)

  /** An outcome together with the foreign calls made to reach it. */
  datatype Traced<+T> = Traced(result: Result<T, Error>, calls: seq<Call>)

  function ErrorOf<T>(r: Result<T, Error>): Option<Error> {
    if r.Err? then Some(r.error) else None
  }

  /** The error `call` reports under `lib`, or None when it succeeds. */
  function Outcome(lib: HelmLib, call: Call): Option<Error> {
    match call
    case BuildConfigFromFlags(m, p) => ErrorOf(lib.kube.buildConfigFromFlags(m, p))
    case NewForConfig(c) => lib.kube.newForConfig(c)
    case ToJSON(d) => ErrorOf(lib.kube.toJSON(d))
    case Unmarshal(j) => ErrorOf(lib.kube.unmarshal(j))
    case ConvertToVersion(v) => ErrorOf(lib.kube.convertToVersion(v))
    case ClientConfig(i, o) => ErrorOf(lib.kube.clientConfig(i, o))
    case NewClientFromRestConf(o) => lib.newClientFromRestConf(o)
    case ClientAddOrUpdateChartRepo(c, e) => lib.addOrUpdateChartRepo(c, e)
    case ToYAML(s) => ErrorOf(lib.toYAML(s))
    case ClientInstallOrUpgradeChart(c, s) => ErrorOf(lib.installOrUpgradeChart(c, s))
    case ClientRollbackRelease(c, s) => lib.rollbackRelease(c, s)
    case ClientListDeployedReleases(c) => ErrorOf(lib.listDeployedReleases(c))
    case ClientGetRelease(c, n) => ErrorOf(lib.getRelease(c, n))
    case ClientGetReleaseValues(c, n, a) => ErrorOf(lib.getReleaseValues(c, n, a))
  }

  function Kind(call: Call): Step {
    match call
    case BuildConfigFromFlags(_, _) => BuildConfigFromFlagsStep
    case NewForConfig(_) => NewForConfigStep
    case ToJSON(_) => ToJSONStep
    case Unmarshal(_) => UnmarshalStep
    case ConvertToVersion(_) => ConvertToVersionStep
    case ClientConfig(_, _) => ClientConfigStep
    case NewClientFromRestConf(_) => NewClientStep
    case ClientAddOrUpdateChartRepo(_, _) => AddRepoStep
    case ToYAML(_) => ToYAMLStep
    case ClientInstallOrUpgradeChart(_, _) => InstallStep
    case ClientRollbackRelease(_, _) => RollbackStep
    case ClientListDeployedReleases(_) => ListStep
    case ClientGetRelease(_, _) => GetStep
    case ClientGetReleaseValues(_, _, _) => ValuesStep
  }

  /** The error of the last call made, if it failed. */
  function LastError(lib: HelmLib, calls: seq<Call>): Option<Error> {
    if calls == [] then None else Outcome(lib, calls[|calls| - 1])
  }

  /**
   * The calls follow `plan` step by step and stop at the first failure: every call but
   * the last succeeded; on failure the last one failed, and otherwise the whole plan ran.
   */
  predicate RanInOrder(lib: HelmLib, calls: seq<Call>, plan: seq<Step>, failed: bool)
    decreases |calls|
  {
    if calls == [] then plan == [] && !failed
    else
      && plan != [] && Kind(calls[0]) == plan[0]
      && if |calls| == 1 then (failed <==> Outcome(lib, calls[0]).Some?) && (!failed ==> |plan| == 1)
         else Outcome(lib, calls[0]).None? && RanInOrder(lib, calls[1..], plan[1..], failed)
  }

  /** What RanInOrder says, call by call. */
  lemma {:induction false} RanInOrderMeans(lib: HelmLib, calls: seq<Call>, plan: seq<Step>, failed: bool)
    requires RanInOrder(lib, calls, plan, failed)
    ensures |calls| <= |plan|
    ensures forall i :: 0 <= i < |calls| ==> Kind(calls[i]) == plan[i]
    ensures forall i :: 0 <= i < |calls| - 1 ==> Outcome(lib, calls[i]).None?
    ensures failed <==> LastError(lib, calls).Some?
    ensures !failed ==> |calls| == |plan|
    decreases |calls|
  {
    if |calls| > 1 {
      RanInOrderMeans(lib, calls[1..], plan[1..], failed);
      forall i | 0 <= i < |calls| ensures Kind(calls[i]) == plan[i] {
        if i > 0 { assert calls[1..][i - 1] == calls[i]; }
      }
      forall i | 0 <= i < |calls| - 1 ensures Outcome(lib, calls[i]).None? {
        if i > 0 { assert calls[1..][i - 1] == calls[i]; }
      }
    }
  }

  /** BuildK8sClient's steps. */
  function BuildPlan(): seq<Step> {
    [ConvertToVersionStep, ClientConfigStep, NewForConfigStep]
  }

  /** The steps of building the Kubernetes client: from the ambient kubeconfig, or from the given document. */
  function ClientPlan(kubeConfig: string): seq<Step> {
    if kubeConfig == "" then [BuildConfigFromFlagsStep, NewForConfigStep]
    else [ToJSONStep, UnmarshalStep] + BuildPlan()
  }

  function HelmClientPlan(kubeConfig: string): seq<Step> {
    ClientPlan(kubeConfig) + [NewClientStep]
  }

  /** The steps of an operation: the helm client, then the operation's own steps. */
  function OperationPlan(kubeConfig: string, steps: seq<Step>): seq<Step> {
    HelmClientPlan(kubeConfig) + steps
  }

  /** One call on its own follows the plan made of its step. */
  lemma RanOne(lib: HelmLib, call: Call)
    ensures RanInOrder(lib, [call], [Kind(call)], Outcome(lib, call).Some?)
  {
  }

  /** A run that succeeded, followed by another run, follows the two plans one after the other. */
  lemma {:induction false} RanThen(lib: HelmLib, first: seq<Call>, firstPlan: seq<Step>, next: seq<Call>, nextPlan: seq<Step>, failed: bool)
    requires RanInOrder(lib, first, firstPlan, false)
    requires RanInOrder(lib, next, nextPlan, failed)
    requires first != [] && next != []
    ensures RanInOrder(lib, first + next, firstPlan + nextPlan, failed)
    ensures LastError(lib, first + next) == LastError(lib, next)
    decreases |first|
  {
    var calls, plan := first + next, firstPlan + nextPlan;
    assert calls[0] == first[0] && plan[0] == firstPlan[0];
    if |first| == 1 {
      assert calls[1..] == next;
      assert plan[1..] == nextPlan;
    } else {
      RanThen(lib, first[1..], firstPlan[1..], next, nextPlan, failed);
      assert calls[1..] == first[1..] + next;
      assert plan[1..] == firstPlan[1..] + nextPlan;
    }
  }

  /** A run that stopped at a failure still follows any longer plan. */
  lemma {:induction false} StopExtends(lib: HelmLib, calls: seq<Call>, plan: seq<Step>, more: seq<Step>)
    requires RanInOrder(lib, calls, plan, true)
    ensures RanInOrder(lib, calls, plan + more, true)
    decreases |calls|
  {
    assert (plan + more)[0] == plan[0];
    if |calls| > 1 {
      StopExtends(lib, calls[1..], plan[1..], more);
      assert (plan + more)[1..] == plan[1..] + more;
    }
  }

  /** A run that failed ended with a call of one of the plan's steps. */
  lemma FailedRunLastStep(lib: HelmLib, calls: seq<Call>, plan: seq<Step>)
    requires RanInOrder(lib, calls, plan, true)
    ensures calls != [] && Kind(calls[|calls| - 1]) in plan
  {
    RanInOrderMeans(lib, calls, plan, true);
    assert Kind(calls[|calls| - 1]) == plan[|calls| - 1];
  }

  // ---------------------------------------------------------------------------
  // Building the Kubernetes client
  // ---------------------------------------------------------------------------

  /** The overrides BuildK8sClient asks for: the cluster's server and TLS server name, nothing else. */
  function Overrides(server: string, serverName: string): ConfigOverrides {
    ConfigOverrides(Cluster(server, serverName), "")
  }

  /** The config after BuildK8sClient's four assignments. */
  function Forced(f: ConfigFields, server: string, serverName: string): ConfigFields {
    f.(qps := DefaultQPS, burst := DefaultBurst, host := server, serverName := serverName)
  }

  /** The kubeconfig file the ambient branch reads: "%s/.kube/config" of $HOME. */
  function DefaultKubeConfigPath(home: string): string {
    home + "/.kube/config"
  }

  /** What BuildK8sClient does, as a value. */
  function BuildK8sClientSpec(lib: ClientGo, server: string, serverName: string, configV1: KubeConfigV1): Traced<ConfigFields> {
    var convert := ConvertToVersion(configV1);
    match lib.convertToVersion(configV1)
    case Err(e) => Traced(Err(e), [convert])
    case Ok(internal) =>
      var build := ClientConfig(internal, Overrides(server, serverName));
      match lib.clientConfig(internal, Overrides(server, serverName))
      case Err(e) => Traced(Err(e), [convert, build])
      case Ok(f) =>
        var config := Forced(f, server, serverName);
        var calls := [convert, build, NewForConfig(config)];
        match lib.newForConfig(config)
        case Some(e) => Traced(Err(e), calls)
        case None => Traced(Ok(config), calls)
  }

  /** What BuildK8sClientByKubeConfig does, as a value; `home` is the value of $HOME. */
  function ByKubeConfigSpec(lib: ClientGo, kubeConfig: string, apiServer: string, apiServerName: string, home: string): Traced<ConfigFields> {
    if kubeConfig == "" then
      var load := BuildConfigFromFlags("", DefaultKubeConfigPath(home));
      match lib.buildConfigFromFlags("", DefaultKubeConfigPath(home))
      case Err(e) => Traced(Err(e), [load])
      case Ok(f) =>
        match lib.newForConfig(f)
        case Some(e) => Traced(Err(e), [load, NewForConfig(f)])
        case None => Traced(Ok(f), [load, NewForConfig(f)])
    else
      var toJson := ToJSON(kubeConfig);
      match lib.toJSON(kubeConfig)
      case Err(e) => Traced(Err(e), [toJson])
      case Ok(data) =>
        var unmarshal := Unmarshal(data);
        match lib.unmarshal(data)
        case Err(e) => Traced(Err(e), [toJson, unmarshal])
        case Ok(v1) =>
          var built := BuildK8sClientSpec(lib, apiServer, apiServerName, v1);
          Traced(built.result, [toJson, unmarshal] + built.calls)
  }

  /** The config a built client holds, or the error. */
  function ConfigOf(r: Result<K8sClient, Error>): Result<ConfigFields, Error>
    reads if r.Ok? then {r.value.config} else {}
  {
    if r.Ok? then Ok(r.value.config.Fields()) else Err(r.error)
  }

  /**
   * Converts the v1 document, builds a config with the server overrides, then assigns
   * QPS, Burst, Host and the TLS server name on it one after another, and builds the
   * typed client from it.
   */
  method BuildK8sClient(lib: ClientGo, server: string, serverName: string, configV1: KubeConfigV1)
    returns (r: Result<K8sClient, Error>, calls: seq<Call>)
    ensures ConfigOf(r) == BuildK8sClientSpec(lib, server, serverName, configV1).result
    ensures calls == BuildK8sClientSpec(lib, server, serverName, configV1).calls
    ensures r.Ok? ==> fresh(r.value.config) && r.value.clientset == Clientset(r.value.config.Fields())
  {
    calls := [ConvertToVersion(configV1)];
    var converted := lib.convertToVersion(configV1);
    if converted.Err? {
      return Err(converted.error), calls;
    }
    var overrides := Overrides(server, serverName);
    calls := calls + [ClientConfig(converted.value, overrides)];
    var built := lib.clientConfig(converted.value, overrides);
    if built.Err? {
      return Err(built.error), calls;
    }
    var config := new RestConfig(built.value);
    config.qps := DefaultQPS;
    config.burst := DefaultBurst;
    config.host := server;
    config.serverName := serverName;

    calls := calls + [NewForConfig(config.Fields())];
    var failure := lib.newForConfig(config.Fields());
    if failure.Some? {
      return Err(failure.value), calls;
    }
    r := Ok(K8sClient(Clientset(config.Fields()), config));
  }

  /**
   * An empty kubeconfig means the file under $HOME, used as it is; otherwise the document
   * is turned into JSON, decoded as a v1 Config and handed to BuildK8sClient.
   */
  method BuildK8sClientByKubeConfig(lib: ClientGo, kubeConfig: string, apiServer: string, apiServerName: string, home: string)
    returns (r: Result<K8sClient, Error>, calls: seq<Call>)
    ensures ConfigOf(r) == ByKubeConfigSpec(lib, kubeConfig, apiServer, apiServerName, home).result
    ensures calls == ByKubeConfigSpec(lib, kubeConfig, apiServer, apiServerName, home).calls
    ensures r.Ok? ==> fresh(r.value.config) && r.value.clientset == Clientset(r.value.config.Fields())
  {
    if kubeConfig == "" {
      var path := DefaultKubeConfigPath(home);
      calls := [BuildConfigFromFlags("", path)];
      var loaded := lib.buildConfigFromFlags("", path);
      if loaded.Err? {
        return Err(loaded.error), calls;
      }
      var config := new RestConfig(loaded.value);
      calls := calls + [NewForConfig(config.Fields())];
      var failure := lib.newForConfig(config.Fields());
      if failure.Some? {
        return Err(failure.value), calls;
      }
      return Ok(K8sClient(Clientset(config.Fields()), config)), calls;
    }
    calls := [ToJSON(kubeConfig)];
    var data := lib.toJSON(kubeConfig);
    if data.Err? {
      return Err(data.error), calls;
    }
    calls := calls + [Unmarshal(data.value)];
    var k8sContext := lib.unmarshal(data.value);
    if k8sContext.Err? {
      return Err(k8sContext.error), calls;
    }
    var built;
    r, built := BuildK8sClient(lib, apiServer, apiServerName, k8sContext.value);
    calls := calls + built;
  }

  // ---------------------------------------------------------------------------
  // The helm client
  // ---------------------------------------------------------------------------

  /** The options GetHelmClient passes: the caller's namespace, fixed repository paths, debug and linting on. */
  function ClientOptions(namespace: string, restConfig: ConfigFields): RestConfClientOptions {
    RestConfClientOptions(Options(namespace, RepositoryCache, RepositoryConfig, true, true), restConfig)
  }

  /** What GetHelmClient does, as a value. */
  function GetHelmClientSpec(lib: HelmLib, apiServer: string, apiServerName: string, kubeConfig: string, namespace: string, home: string): Traced<HelmClient> {
    var k8s := ByKubeConfigSpec(lib.kube, kubeConfig, apiServer, apiServerName, home);
    match k8s.result
    case Err(e) => Traced(Err(e), k8s.calls)
    case Ok(config) =>
      var opts := ClientOptions(namespace, config);
      match lib.newClientFromRestConf(opts)
      case Some(e) => Traced(Err(e), k8s.calls + [NewClientFromRestConf(opts)])
      case None => Traced(Ok(HelmClient(opts)), k8s.calls + [NewClientFromRestConf(opts)])
  }

  /** Builds the Kubernetes config, then a helm client over it with fixed options. */
  method GetHelmClient(lib: HelmLib, apiServer: string, apiServerName: string, kubeConfig: string, namespace: string, home: string)
    returns (r: Result<HelmClient, Error>, calls: seq<Call>)
    ensures r == GetHelmClientSpec(lib, apiServer, apiServerName, kubeConfig, namespace, home).result
    ensures calls == GetHelmClientSpec(lib, apiServer, apiServerName, kubeConfig, namespace, home).calls
  {
    var k8s;
    k8s, calls := BuildK8sClientByKubeConfig(lib.kube, kubeConfig, apiServer, apiServerName, home);
    if k8s.Err? {
      return Err(k8s.error), calls;
    }
    var opt := ClientOptions(namespace, k8s.value.config.Fields());
    calls := calls + [NewClientFromRestConf(opt)];
    var failure := lib.newClientFromRestConf(opt);
    if failure.Some? {
      return Err(failure.value), calls;
    }
    r := Ok(HelmClient(opt));
  }

  // ---------------------------------------------------------------------------
  // The helm operations
  // ---------------------------------------------------------------------------

  /** fmt.Sprintf("%s/%s", repository, chart). */
  function QualifiedChartName(repositoryName: string, chartName: string): string {
    repositoryName + "/" + chartName
  }

  function InstallChartSpec(chartRepo: RepoEntry, releaseName: string, chartName: string, chartVersion: string, namespace: string, valuesYaml: string): ChartSpec {
    ChartSpec(releaseName, QualifiedChartName(chartRepo.name, chartName), chartVersion, namespace, valuesYaml,
              true, true, true, ChartTimeoutSeconds, ChartMaxHistory)
  }

  /** The rollback spec leaves the version, the values and ReuseValues at their zero values. */
  function RollbackChartSpec(chartRepoName: string, releaseName: string, chartName: string, namespace: string): ChartSpec {
    ChartSpec(releaseName, QualifiedChartName(chartRepoName, chartName), "", namespace, "",
              true, false, true, ChartTimeoutSeconds, ChartMaxHistory)
  }

  /**
   * Needs a "set" argument; then builds the helm client, adds or updates the chart
   * repository, compiles the set string to YAML and installs or upgrades the chart,
   * returning at the first failure.
   */
  function InstallOrUpgradeChart(lib: HelmLib, chartRepo: RepoEntry, releaseName: string, chartName: string, chartVersion: string,
                                 apiServer: string, apiServerName: string, kubeConfig: string, namespace: string,
                                 args: map<string, string>, home: string): Traced<Release>
  {
    if "set" !in args then Traced(Err(MissingSetError), [])
    else
      var helm := GetHelmClientSpec(lib, apiServer, apiServerName, kubeConfig, namespace, home);
      match helm.result
      case Err(e) => Traced(Err(e), helm.calls)
      case Ok(client) =>
        var rest := InstallWithClient(lib, client, chartRepo, releaseName, chartName, chartVersion, namespace, args["set"]);
        Traced(rest.result, helm.calls + rest.calls)
  }

  /** InstallOrUpgradeChart once the helm client is built. */
  function InstallWithClient(lib: HelmLib, client: HelmClient, chartRepo: RepoEntry, releaseName: string, chartName: string,
                             chartVersion: string, namespace: string, setStr: string): Traced<Release>
  {
    var addRepo := ClientAddOrUpdateChartRepo(client, chartRepo);
    match lib.addOrUpdateChartRepo(client, chartRepo)
    case Some(e) => Traced(Err(e), [addRepo])
    case None =>
      match lib.toYAML(setStr)
      case Err(_) => Traced(Err(SetFormatError), [addRepo, ToYAML(setStr)])
      case Ok(yamlStr) =>
        var spec := InstallChartSpec(chartRepo, releaseName, chartName, chartVersion, namespace, yamlStr);
        Traced(lib.installOrUpgradeChart(client, spec), [addRepo, ToYAML(setStr), ClientInstallOrUpgradeChart(client, spec)])
  }

  /** Builds the helm client and rolls the release back to its previous revision. */
  function RollBackRelease(lib: HelmLib, chartRepoName: string, releaseName: string, chartName: string,
                           apiServer: string, apiServerName: string, kubeConfig: string, namespace: string, home: string): Traced<()>
  {
    var spec := RollbackChartSpec(chartRepoName, releaseName, chartName, namespace);
    var helm := GetHelmClientSpec(lib, apiServer, apiServerName, kubeConfig, namespace, home);
    match helm.result
    case Err(e) => Traced(Err(e), helm.calls)
    case Ok(client) =>
      var calls := helm.calls + [ClientRollbackRelease(client, spec)];
      match lib.rollbackRelease(client, spec)
      case Some(e) => Traced(Err(e), calls)
      case None => Traced(Ok(()), calls)
  }

  function GetReleaseList(lib: HelmLib, apiServer: string, apiServerName: string, kubeConfig: string, namespace: string, home: string): Traced<seq<Release>> {
    var helm := GetHelmClientSpec(lib, apiServer, apiServerName, kubeConfig, namespace, home);
    match helm.result
    case Err(e) => Traced(Err(e), helm.calls)
    case Ok(client) => Traced(lib.listDeployedReleases(client), helm.calls + [ClientListDeployedReleases(client)])
  }

  function GetRelease(lib: HelmLib, releaseName: string, apiServer: string, apiServerName: string, kubeConfig: string, namespace: string, home: string): Traced<Release> {
    var helm := GetHelmClientSpec(lib, apiServer, apiServerName, kubeConfig, namespace, home);
    match helm.result
    case Err(e) => Traced(Err(e), helm.calls)
    case Ok(client) => Traced(lib.getRelease(client, releaseName), helm.calls + [ClientGetRelease(client, releaseName)])
  }

  function GetReleaseValues(lib: HelmLib, releaseName: string, apiServer: string, apiServerName: string, kubeConfig: string, namespace: string,
                            allValues: bool, home: string): Traced<Values> {
    var helm := GetHelmClientSpec(lib, apiServer, apiServerName, kubeConfig, namespace, home);
    match helm.result
    case Err(e) => Traced(Err(e), helm.calls)
    case Ok(client) =>
      Traced(lib.getReleaseValues(client, releaseName, allValues), helm.calls + [ClientGetReleaseValues(client, releaseName, allValues)])
  }

  // ---------------------------------------------------------------------------
  // Properties
  // ---------------------------------------------------------------------------

  /**
   * After a successful BuildK8sClient the config has QPS and Burst 1e6, the given server as
   * its host and the given TLS server name, whatever the document said; every other field
   * is the one the library built, and the library was asked for the server overrides.
   */
  lemma BuildK8sClientForcesFields(lib: ClientGo, server: string, serverName: string, configV1: KubeConfigV1)
    ensures var t := BuildK8sClientSpec(lib, server, serverName, configV1);
      var converted := lib.convertToVersion(configV1);
      && t.calls[0] == ConvertToVersion(configV1)
      && (t.result.Ok? ==>
            && converted.Ok?
            && t.calls[1] == ClientConfig(converted.value, Overrides(server, serverName))
            && t.result.value == Forced(lib.clientConfig(converted.value, Overrides(server, serverName)).value, server, serverName))
      && (t.result.Ok? ==>
        && |t.calls| == 3 && t.calls[1].ClientConfig?
        && t.calls[1].overrides.clusterDefaults == Cluster(server, serverName)
        && var built := lib.clientConfig(t.calls[1].internal, t.calls[1].overrides);
        && built.Ok?
        && t.result.value.qps == DefaultQPS && t.result.value.burst == DefaultBurst
        && t.result.value.host == server && t.result.value.serverName == serverName
        && t.result.value.credentials == built.value.credentials
        && t.calls[2] == NewForConfig(t.result.value))
  {
  }

  /**
   * With an empty kubeconfig the config is the one loaded from $HOME/.kube/config, as it
   * is: no overrides are asked for and nothing is forced.
   */
  lemma AmbientKubeConfigIsUnforced(lib: ClientGo, apiServer: string, apiServerName: string, home: string)
    ensures var t := ByKubeConfigSpec(lib, "", apiServer, apiServerName, home);
      && t.calls[0] == BuildConfigFromFlags("", home + "/.kube/config")
      && (forall i :: 0 <= i < |t.calls| ==> !t.calls[i].ClientConfig?)
      && (t.result.Ok? ==> t.result == lib.buildConfigFromFlags("", home + "/.kube/config"))
  {
  }

  /** A kubeconfig document is decoded and built with the overrides, so the result carries them. */
  lemma DocumentKubeConfigIsForced(lib: ClientGo, kubeConfig: string, apiServer: string, apiServerName: string, home: string)
    requires kubeConfig != ""
    ensures var t := ByKubeConfigSpec(lib, kubeConfig, apiServer, apiServerName, home);
      && t.calls[0] == ToJSON(kubeConfig)
      && (t.result.Ok? ==>
            var data := lib.toJSON(kubeConfig);
            && data.Ok? && lib.unmarshal(data.value).Ok?
            && t.calls[1] == Unmarshal(data.value)
            && t.calls[2] == ConvertToVersion(lib.unmarshal(data.value).value)
            && t.result == BuildK8sClientSpec(lib, apiServer, apiServerName, lib.unmarshal(data.value).value).result)
      && (t.result.Ok? ==>
            && t.calls[3].ClientConfig? && t.calls[3].overrides.clusterDefaults == Cluster(apiServer, apiServerName)
            && t.result.value.qps == DefaultQPS && t.result.value.burst == DefaultBurst
            && t.result.value.host == apiServer && t.result.value.serverName == apiServerName)
  {
    var data := lib.toJSON(kubeConfig);
    if data.Ok? && lib.unmarshal(data.value).Ok? {
      BuildK8sClientForcesFields(lib, apiServer, apiServerName, lib.unmarshal(data.value).value);
    }
  }

  /** BuildK8sClient converts, builds, then creates the client, stopping at the first failure, whose error it reports. */
  lemma BuildK8sClientInOrder(lib: HelmLib, server: string, serverName: string, configV1: KubeConfigV1)
    ensures var t := BuildK8sClientSpec(lib.kube, server, serverName, configV1);
      var converted := lib.kube.convertToVersion(configV1);
      && RanInOrder(lib, t.calls, BuildPlan(), t.result.Err?)
      && (converted.Err? ==> t.result == Err(converted.error) && t.calls == [ConvertToVersion(configV1)])
      && (converted.Ok? && lib.kube.clientConfig(converted.value, Overrides(server, serverName)).Err? ==>
            && t.result == Err(lib.kube.clientConfig(converted.value, Overrides(server, serverName)).error)
            && t.calls == [ConvertToVersion(configV1), ClientConfig(converted.value, Overrides(server, serverName))])
      && (t.result.Err? ==> LastError(lib, t.calls) == Some(t.result.error))
  {
    var convert := ConvertToVersion(configV1);
    RanOne(lib, convert);
    var converted := lib.kube.convertToVersion(configV1);
    if converted.Err? {
      StopExtends(lib, [convert], [ConvertToVersionStep], [ClientConfigStep, NewForConfigStep]);
    } else {
      var build := ClientConfig(converted.value, Overrides(server, serverName));
      RanOne(lib, build);
      RanThen(lib, [convert], [ConvertToVersionStep], [build], [ClientConfigStep], Outcome(lib, build).Some?);
      var built := lib.kube.clientConfig(converted.value, Overrides(server, serverName));
      if built.Err? {
        StopExtends(lib, [convert] + [build], [ConvertToVersionStep] + [ClientConfigStep], [NewForConfigStep]);
      } else {
        var create := NewForConfig(Forced(built.value, server, serverName));
        RanOne(lib, create);
        RanThen(lib, [convert] + [build], [ConvertToVersionStep] + [ClientConfigStep], [create], [NewForConfigStep], Outcome(lib, create).Some?);
      }
    }
  }

  /** The ambient branch loads the file and creates the client, stopping at the first failure. */
  lemma AmbientInOrder(lib: HelmLib, apiServer: string, apiServerName: string, home: string)
    ensures var t := ByKubeConfigSpec(lib.kube, "", apiServer, apiServerName, home);
      && RanInOrder(lib, t.calls, ClientPlan(""), t.result.Err?)
      && (t.result.Err? ==> LastError(lib, t.calls) == Some(t.result.error))
  {
    var load := BuildConfigFromFlags("", DefaultKubeConfigPath(home));
    RanOne(lib, load);
    var loaded := lib.kube.buildConfigFromFlags("", DefaultKubeConfigPath(home));
    if loaded.Err? {
      StopExtends(lib, [load], [BuildConfigFromFlagsStep], [NewForConfigStep]);
    } else {
      var create := NewForConfig(loaded.value);
      RanOne(lib, create);
      RanThen(lib, [load], [BuildConfigFromFlagsStep], [create], [NewForConfigStep], Outcome(lib, create).Some?);
    }
  }

  /** The document branch decodes the document and then runs BuildK8sClient, stopping at the first failure. */
  lemma DocumentInOrder(lib: HelmLib, kubeConfig: string, apiServer: string, apiServerName: string, home: string)
    requires kubeConfig != ""
    ensures var t := ByKubeConfigSpec(lib.kube, kubeConfig, apiServer, apiServerName, home);
      && RanInOrder(lib, t.calls, ClientPlan(kubeConfig), t.result.Err?)
      && (t.result.Err? ==> LastError(lib, t.calls) == Some(t.result.error))
  {
    var toJson := ToJSON(kubeConfig);
    RanOne(lib, toJson);
    var data := lib.kube.toJSON(kubeConfig);
    if data.Err? {
      StopExtends(lib, [toJson], [ToJSONStep], [UnmarshalStep] + BuildPlan());
    } else {
      var unmarshal := Unmarshal(data.value);
      RanOne(lib, unmarshal);
      RanThen(lib, [toJson], [ToJSONStep], [unmarshal], [UnmarshalStep], Outcome(lib, unmarshal).Some?);
      var decoded := lib.kube.unmarshal(data.value);
      if decoded.Err? {
        StopExtends(lib, [toJson] + [unmarshal], [ToJSONStep] + [UnmarshalStep], BuildPlan());
      } else {
        var built := BuildK8sClientSpec(lib.kube, apiServer, apiServerName, decoded.value);
        BuildK8sClientInOrder(lib, apiServer, apiServerName, decoded.value);
        RanThen(lib, [toJson] + [unmarshal], [ToJSONStep] + [UnmarshalStep], built.calls, BuildPlan(), built.result.Err?);
      }
    }
  }

  /** Building the Kubernetes client follows its plan and reports the error of the step that failed. */
  lemma ClientPhaseInOrder(lib: HelmLib, kubeConfig: string, apiServer: string, apiServerName: string, home: string)
    ensures var t := ByKubeConfigSpec(lib.kube, kubeConfig, apiServer, apiServerName, home);
      && RanInOrder(lib, t.calls, ClientPlan(kubeConfig), t.result.Err?)
      && (t.result.Err? ==> LastError(lib, t.calls) == Some(t.result.error))
  {
    if kubeConfig == "" {
      AmbientInOrder(lib, apiServer, apiServerName, home);
    } else {
      DocumentInOrder(lib, kubeConfig, apiServer, apiServerName, home);
    }
  }

  /** GetHelmClient follows its plan and reports the error of the step that failed, unchanged. */
  lemma GetHelmClientInOrder(lib: HelmLib, apiServer: string, apiServerName: string, kubeConfig: string, namespace: string, home: string)
    ensures var t := GetHelmClientSpec(lib, apiServer, apiServerName, kubeConfig, namespace, home);
      && RanInOrder(lib, t.calls, HelmClientPlan(kubeConfig), t.result.Err?)
      && (t.result.Err? ==> LastError(lib, t.calls) == Some(t.result.error))
  {
    var k8s := ByKubeConfigSpec(lib.kube, kubeConfig, apiServer, apiServerName, home);
    ClientPhaseInOrder(lib, kubeConfig, apiServer, apiServerName, home);
    if k8s.result.Err? {
      StopExtends(lib, k8s.calls, ClientPlan(kubeConfig), [NewClientStep]);
    } else {
      var create := NewClientFromRestConf(ClientOptions(namespace, k8s.result.value));
      RanOne(lib, create);
      RanThen(lib, k8s.calls, ClientPlan(kubeConfig), [create], [NewClientStep], Outcome(lib, create).Some?);
    }
  }

  /**
   * The helm client works in the caller's namespace, with the repository cache
   * /tmp/.helmcache and configuration /tmp/.helmrepo, over the config the client phase built.
   */
  lemma GetHelmClientOptions(lib: HelmLib, apiServer: string, apiServerName: string, kubeConfig: string, namespace: string, home: string)
    ensures var t := GetHelmClientSpec(lib, apiServer, apiServerName, kubeConfig, namespace, home);
      t.result.Ok? ==>
        && t.result.value.options.options == Options(namespace, "/tmp/.helmcache", "/tmp/.helmrepo", true, true)
        && Ok(t.result.value.options.restConfig) == ByKubeConfigSpec(lib.kube, kubeConfig, apiServer, apiServerName, home).result
        && t.calls[|t.calls| - 1] == NewClientFromRestConf(t.result.value.options)
  {
  }

  /** Without a "set" argument InstallOrUpgradeChart fails at once: no client is built and no repository touched. */
  lemma InstallNeedsSet(lib: HelmLib, chartRepo: RepoEntry, releaseName: string, chartName: string, chartVersion: string,
                        apiServer: string, apiServerName: string, kubeConfig: string, namespace: string,
                        args: map<string, string>, home: string)
    requires "set" !in args
    ensures var t := InstallOrUpgradeChart(lib, chartRepo, releaseName, chartName, chartVersion, apiServer, apiServerName, kubeConfig, namespace, args, home);
      t.result == Err(MissingSetError) && t.calls == []
  {
  }

  /** Once the client is built: repository, set string, install, stopping at the first failure. */
  lemma InstallWithClientInOrder(lib: HelmLib, client: HelmClient, chartRepo: RepoEntry, releaseName: string, chartName: string,
                                 chartVersion: string, namespace: string, setStr: string)
    ensures var t := InstallWithClient(lib, client, chartRepo, releaseName, chartName, chartVersion, namespace, setStr);
      var repo := lib.addOrUpdateChartRepo(client, chartRepo);
      && RanInOrder(lib, t.calls, [AddRepoStep, ToYAMLStep, InstallStep], t.result.Err?)
      && (repo.Some? ==> t.result == Err(repo.value) && t.calls == [ClientAddOrUpdateChartRepo(client, chartRepo)])
      && (repo.None? && lib.toYAML(setStr).Err? ==>
            t.result == Err(SetFormatError) && t.calls == [ClientAddOrUpdateChartRepo(client, chartRepo), ToYAML(setStr)])
      && (t.result.Err? ==>
            if Kind(t.calls[|t.calls| - 1]) == ToYAMLStep then t.result.error == SetFormatError
            else LastError(lib, t.calls) == Some(t.result.error))
  {
    var addRepo := ClientAddOrUpdateChartRepo(client, chartRepo);
    RanOne(lib, addRepo);
    if lib.addOrUpdateChartRepo(client, chartRepo).Some? {
      StopExtends(lib, [addRepo], [AddRepoStep], [ToYAMLStep, InstallStep]);
    } else {
      var compile := ToYAML(setStr);
      RanOne(lib, compile);
      RanThen(lib, [addRepo], [AddRepoStep], [compile], [ToYAMLStep], Outcome(lib, compile).Some?);
      if lib.toYAML(setStr).Err? {
        StopExtends(lib, [addRepo] + [compile], [AddRepoStep] + [ToYAMLStep], [InstallStep]);
      } else {
        var spec := InstallChartSpec(chartRepo, releaseName, chartName, chartVersion, namespace, lib.toYAML(setStr).value);
        var install := ClientInstallOrUpgradeChart(client, spec);
        RanOne(lib, install);
        RanThen(lib, [addRepo] + [compile], [AddRepoStep] + [ToYAMLStep], [install], [InstallStep], Outcome(lib, install).Some?);
      }
    }
  }

  /**
   * With a "set" argument the steps run in the order client, repository, set string,
   * install, and stop at the first failure; a set string that does not compile is reported
   * with a fixed message, every other failure with its own error.
   */
  lemma InstallInOrder(lib: HelmLib, chartRepo: RepoEntry, releaseName: string, chartName: string, chartVersion: string,
                       apiServer: string, apiServerName: string, kubeConfig: string, namespace: string,
                       args: map<string, string>, home: string)
    requires "set" in args
    ensures var h := GetHelmClientSpec(lib, apiServer, apiServerName, kubeConfig, namespace, home);
      var t := InstallOrUpgradeChart(lib, chartRepo, releaseName, chartName, chartVersion, apiServer, apiServerName, kubeConfig, namespace, args, home);
      && RanInOrder(lib, t.calls, OperationPlan(kubeConfig, [AddRepoStep, ToYAMLStep, InstallStep]), t.result.Err?)
      && (h.result.Ok? ==>
            var repo := lib.addOrUpdateChartRepo(h.result.value, chartRepo);
            && (repo.Some? ==>
                  t.result == Err(repo.value) && t.calls == h.calls + [ClientAddOrUpdateChartRepo(h.result.value, chartRepo)])
            && (repo.None? && lib.toYAML(args["set"]).Err? ==>
                  && t.result == Err(SetFormatError)
                  && t.calls == h.calls + [ClientAddOrUpdateChartRepo(h.result.value, chartRepo), ToYAML(args["set"])]))
      && (t.result.Err? ==>
            if Kind(t.calls[|t.calls| - 1]) == ToYAMLStep then t.result.error == SetFormatError
            else LastError(lib, t.calls) == Some(t.result.error))
  {
    var helm := GetHelmClientSpec(lib, apiServer, apiServerName, kubeConfig, namespace, home);
    var plan := HelmClientPlan(kubeConfig);
    var steps := [AddRepoStep, ToYAMLStep, InstallStep];
    GetHelmClientInOrder(lib, apiServer, apiServerName, kubeConfig, namespace, home);
    if helm.result.Err? {
      StopExtends(lib, helm.calls, plan, steps);
      FailedRunLastStep(lib, helm.calls, plan);
      assert ToYAMLStep !in plan;
    } else {
      var rest := InstallWithClient(lib, helm.result.value, chartRepo, releaseName, chartName, chartVersion, namespace, args["set"]);
      InstallWithClientInOrder(lib, helm.result.value, chartRepo, releaseName, chartName, chartVersion, namespace, args["set"]);
      RanThen(lib, helm.calls, plan, rest.calls, steps, rest.result.Err?);
      assert (helm.calls + rest.calls)[|helm.calls + rest.calls| - 1] == rest.calls[|rest.calls| - 1];
    }
  }

  /**
   * A client error is returned as it is, with no further call. Once the client is built,
   * the repository has been added and the set string compiles, the install step runs. When
   * it runs, the calls are those of building the client, then the repository (with the
   * caller's entry), the set string and the install, all on the client that was built; the
   * install spec names the chart "<repository>/<chart>" with the caller's release, version
   * and namespace, the compiled set string as values, CRD upgrades, value reuse and waiting
   * on, a 600 second timeout and 20 revisions kept; its result is the operation's result.
   */
  lemma InstallChartSpecFields(lib: HelmLib, chartRepo: RepoEntry, releaseName: string, chartName: string, chartVersion: string,
                               apiServer: string, apiServerName: string, kubeConfig: string, namespace: string,
                               args: map<string, string>, home: string)
    requires "set" in args
    ensures var h := GetHelmClientSpec(lib, apiServer, apiServerName, kubeConfig, namespace, home);
      var t := InstallOrUpgradeChart(lib, chartRepo, releaseName, chartName, chartVersion, apiServer, apiServerName, kubeConfig, namespace, args, home);
      var n := |t.calls|;
      && (h.result.Err? ==> t.result == Err(h.result.error) && t.calls == h.calls)
      && (h.result.Ok? && lib.addOrUpdateChartRepo(h.result.value, chartRepo).None? && lib.toYAML(args["set"]).Ok? ==>
            n > 0 && t.calls[n - 1].ClientInstallOrUpgradeChart?)
      && (n > 0 && t.calls[n - 1].ClientInstallOrUpgradeChart? ==>
            var spec := t.calls[n - 1].spec;
            && h.result.Ok?
            && t.calls == h.calls + [ClientAddOrUpdateChartRepo(h.result.value, chartRepo), ToYAML(args["set"]),
                                     ClientInstallOrUpgradeChart(h.result.value, spec)]
            && spec.releaseName == releaseName
            && spec.chartName == chartRepo.name + "/" + chartName
            && spec.version == chartVersion
            && spec.namespace == namespace
            && lib.toYAML(args["set"]) == Ok(spec.valuesYaml)
            && spec.upgradeCRDs && spec.reuseValues && spec.wait
            && spec.timeoutSeconds == 600 && spec.maxHistory == 20
            && t.result == lib.installOrUpgradeChart(h.result.value, spec))
  {
    var helm := GetHelmClientSpec(lib, apiServer, apiServerName, kubeConfig, namespace, home);
    GetHelmClientInOrder(lib, apiServer, apiServerName, kubeConfig, namespace, home);
    if helm.result.Err? {
      FailedRunLastStep(lib, helm.calls, HelmClientPlan(kubeConfig));
      assert InstallStep !in HelmClientPlan(kubeConfig);
    } else {
      var rest := InstallWithClient(lib, helm.result.value, chartRepo, releaseName, chartName, chartVersion, namespace, args["set"]);
      InstallWithClientSpecFields(lib, helm.result.value, chartRepo, releaseName, chartName, chartVersion, namespace, args["set"]);
      var calls := helm.calls + rest.calls;
      assert calls[|calls| - 1] == rest.calls[|rest.calls| - 1];
    }
  }

  /** InstallChartSpecFields once the helm client is built. */
  lemma InstallWithClientSpecFields(lib: HelmLib, client: HelmClient, chartRepo: RepoEntry, releaseName: string, chartName: string,
                                    chartVersion: string, namespace: string, setStr: string)
    ensures var t := InstallWithClient(lib, client, chartRepo, releaseName, chartName, chartVersion, namespace, setStr);
      t.calls != [] &&
      (t.calls[|t.calls| - 1].ClientInstallOrUpgradeChart? ==>
        var spec := t.calls[2].spec;
        && |t.calls| == 3
        && t.calls[0] == ClientAddOrUpdateChartRepo(client, chartRepo)
        && t.calls[2].client == client
        && spec.releaseName == releaseName
        && spec.chartName == chartRepo.name + "/" + chartName
        && spec.version == chartVersion
        && spec.namespace == namespace
        && lib.toYAML(setStr) == Ok(spec.valuesYaml)
        && spec.upgradeCRDs && spec.reuseValues && spec.wait
        && spec.timeoutSeconds == 600 && spec.maxHistory == 20
        && t.result == lib.installOrUpgradeChart(client, spec))
  {
  }

  /**
   * RollBackRelease builds the helm client and then, on that client, rolls back with a spec
   * naming the chart "<repository>/<chart>", with CRD upgrades and waiting on, a 600 second
   * timeout and 20 revisions, but no version and no value reuse; the steps stop at the first
   * failure, whose error is reported unchanged.
   */
  lemma RollBackInOrder(lib: HelmLib, chartRepoName: string, releaseName: string, chartName: string,
                        apiServer: string, apiServerName: string, kubeConfig: string, namespace: string, home: string)
    ensures var h := GetHelmClientSpec(lib, apiServer, apiServerName, kubeConfig, namespace, home);
      var t := RollBackRelease(lib, chartRepoName, releaseName, chartName, apiServer, apiServerName, kubeConfig, namespace, home);
      && RanInOrder(lib, t.calls, OperationPlan(kubeConfig, [RollbackStep]), t.result.Err?)
      && (t.result.Err? ==> LastError(lib, t.calls) == Some(t.result.error))
      && (h.result.Err? ==> t.result == Err(h.result.error) && t.calls == h.calls)
      && (h.result.Ok? ==>
            var spec := t.calls[|t.calls| - 1].spec;
            && t.calls == h.calls + [ClientRollbackRelease(h.result.value, spec)]
            && (t.result.Ok? <==> lib.rollbackRelease(h.result.value, spec).None?)
            && spec.releaseName == releaseName && spec.chartName == chartRepoName + "/" + chartName
            && spec.namespace == namespace && spec.version == "" && !spec.reuseValues
            && spec.upgradeCRDs && spec.wait && spec.timeoutSeconds == 600 && spec.maxHistory == 20)
  {
    var helm := GetHelmClientSpec(lib, apiServer, apiServerName, kubeConfig, namespace, home);
    GetHelmClientInOrder(lib, apiServer, apiServerName, kubeConfig, namespace, home);
    if helm.result.Err? {
      StopExtends(lib, helm.calls, HelmClientPlan(kubeConfig), [RollbackStep]);
    } else {
      var spec := RollbackChartSpec(chartRepoName, releaseName, chartName, namespace);
      var op := ClientRollbackRelease(helm.result.value, spec);
      RanOne(lib, op);
      RanThen(lib, helm.calls, HelmClientPlan(kubeConfig), [op], [RollbackStep], Outcome(lib, op).Some?);
    }
  }

  /** GetReleaseList: client errors unchanged, then the list the helm client reports for that client, or its error. */
  lemma GetReleaseListPassesThrough(lib: HelmLib, apiServer: string, apiServerName: string, kubeConfig: string, namespace: string, home: string)
    ensures var h := GetHelmClientSpec(lib, apiServer, apiServerName, kubeConfig, namespace, home);
      var t := GetReleaseList(lib, apiServer, apiServerName, kubeConfig, namespace, home);
      && RanInOrder(lib, t.calls, OperationPlan(kubeConfig, [ListStep]), t.result.Err?)
      && (t.result.Err? ==> LastError(lib, t.calls) == Some(t.result.error))
      && (h.result.Err? ==> t.result == Err(h.result.error) && t.calls == h.calls)
      && (h.result.Ok? ==> t.calls == h.calls + [ClientListDeployedReleases(h.result.value)] && t.result == lib.listDeployedReleases(h.result.value))
  {
    var helm := GetHelmClientSpec(lib, apiServer, apiServerName, kubeConfig, namespace, home);
    GetHelmClientInOrder(lib, apiServer, apiServerName, kubeConfig, namespace, home);
    if helm.result.Err? {
      StopExtends(lib, helm.calls, HelmClientPlan(kubeConfig), [ListStep]);
    } else {
      var op := ClientListDeployedReleases(helm.result.value);
      RanOne(lib, op);
      RanThen(lib, helm.calls, HelmClientPlan(kubeConfig), [op], [ListStep], Outcome(lib, op).Some?);
    }
  }

  /** GetRelease: client errors unchanged, then the release the helm client reports under that name, or its error. */
  lemma GetReleasePassesThrough(lib: HelmLib, releaseName: string, apiServer: string, apiServerName: string, kubeConfig: string, namespace: string, home: string)
    ensures var h := GetHelmClientSpec(lib, apiServer, apiServerName, kubeConfig, namespace, home);
      var t := GetRelease(lib, releaseName, apiServer, apiServerName, kubeConfig, namespace, home);
      && RanInOrder(lib, t.calls, OperationPlan(kubeConfig, [GetStep]), t.result.Err?)
      && (t.result.Err? ==> LastError(lib, t.calls) == Some(t.result.error))
      && (h.result.Err? ==> t.result == Err(h.result.error) && t.calls == h.calls)
      && (h.result.Ok? ==> t.calls == h.calls + [ClientGetRelease(h.result.value, releaseName)] && t.result == lib.getRelease(h.result.value, releaseName))
  {
    var helm := GetHelmClientSpec(lib, apiServer, apiServerName, kubeConfig, namespace, home);
    GetHelmClientInOrder(lib, apiServer, apiServerName, kubeConfig, namespace, home);
    if helm.result.Err? {
      StopExtends(lib, helm.calls, HelmClientPlan(kubeConfig), [GetStep]);
    } else {
      var op := ClientGetRelease(helm.result.value, releaseName);
      RanOne(lib, op);
      RanThen(lib, helm.calls, HelmClientPlan(kubeConfig), [op], [GetStep], Outcome(lib, op).Some?);
    }
  }

  /** GetReleaseValues: client errors unchanged, then the values the helm client reports, or its error. */
  lemma GetReleaseValuesPassesThrough(lib: HelmLib, releaseName: string, apiServer: string, apiServerName: string, kubeConfig: string, namespace: string,
                                      allValues: bool, home: string)
    ensures var h := GetHelmClientSpec(lib, apiServer, apiServerName, kubeConfig, namespace, home);
      var t := GetReleaseValues(lib, releaseName, apiServer, apiServerName, kubeConfig, namespace, allValues, home);
      && RanInOrder(lib, t.calls, OperationPlan(kubeConfig, [ValuesStep]), t.result.Err?)
      && (t.result.Err? ==> LastError(lib, t.calls) == Some(t.result.error))
      && (h.result.Err? ==> t.result == Err(h.result.error) && t.calls == h.calls)
      && (h.result.Ok? ==> t.calls == h.calls + [ClientGetReleaseValues(h.result.value, releaseName, allValues)] && t.result == lib.getReleaseValues(h.result.value, releaseName, allValues))
  {
    var helm := GetHelmClientSpec(lib, apiServer, apiServerName, kubeConfig, namespace, home);
    GetHelmClientInOrder(lib, apiServer, apiServerName, kubeConfig, namespace, home);
    if helm.result.Err? {
      StopExtends(lib, helm.calls, HelmClientPlan(kubeConfig), [ValuesStep]);
    } else {
      var op := ClientGetReleaseValues(helm.result.value, releaseName, allValues);
      RanOne(lib, op);
      RanThen(lib, helm.calls, HelmClientPlan(kubeConfig), [op], [ValuesStep], Outcome(lib, op).Some?);
    }
  }
}

=== FILE: kube.dfy ===
/**
 * The client-go values this code handles, and the client-go calls it makes.
 * Those calls are foreign code: `ClientGo` gathers them as functions, so that every
 * property proved about the callers holds whatever the library does.
 */
module Kube {
  import opened Wrappers

  /** Go's `error`: only passed along, never inspected. */
  type Error = string

  type Bytes = seq<bv8>

  /** The fields of a `rest.Config` that this code reads or writes. */
  datatype ConfigFields = ConfigFields(
    host: string,
    serverName: string,   // TLSClientConfig.ServerName
    qps: int,
    burst: int,
    credentials: string)  // every other field the library fills in, kept as it is

  /** A `*rest.Config`: a record shared by reference and updated in place. */
  class RestConfig {
    var host: string
    var serverName: string
    var qps: int
    var burst: int
    var credentials: string

    constructor (f: ConfigFields)
      ensures Fields() == f
    {
      host, serverName, qps, burst, credentials := f.host, f.serverName, f.qps, f.burst, f.credentials;
    }

    function Fields(): ConfigFields
      reads this
    {
      ConfigFields(host, serverName, qps, burst, credentials)
    }
  }

  /** `clientcmdapi.Cluster`, restricted to the two fields this code sets. */
  datatype Cluster = Cluster(server: string, tlsServerName: string)

  /** `clientcmd.ConfigOverrides`: cluster defaults and the context's namespace. */
  datatype ConfigOverrides = ConfigOverrides(clusterDefaults: Cluster, contextNamespace: string)

  /** A decoded kubeconfig document in its versioned (v1) and internal forms; this code never looks inside. */
  datatype KubeConfigV1 = KubeConfigV1(document: string)
  datatype KubeConfigInternal = KubeConfigInternal(document: string)

  /** A typed API client, built from a config. */
  datatype Clientset = Clientset(config: ConfigFields)

  /** Where a deferred kubeconfig loader looks, and what it falls back to. */
  datatype Fallback = NoFallback | StandardDefaults
  datatype LoadingRules = LoadingRules(precedence: seq<string>, fallback: Fallback)

  /** The arguments of disk.NewCachedDiscoveryClientForConfig. */
  datatype DiscoveryArgs = DiscoveryArgs(config: ConfigFields, discoveryCacheDir: string, httpCacheDir: string, ttlSeconds: nat)

  /**
   * The client-go entry points, together with the two decoding calls the kubeconfig branch
   * makes through other libraries: `toJSON` is apimachinery's `yaml.ToJSON` and `unmarshal`
   * is Go's `encoding/json` `json.Unmarshal`. Constructors that only wrap their arguments say whether
   * they fail (`Some(error)`); the caller builds the value from the arguments.
   */
  datatype ClientGo = ClientGo(
    restConfigFromKubeConfig: Bytes -> Result<ConfigFields, Error>,
    buildConfigFromFlags: (string, string) -> Result<ConfigFields, Error>,
    toJSON: string -> Result<string, Error>,
    unmarshal: string -> Result<KubeConfigV1, Error>,
    convertToVersion: KubeConfigV1 -> Result<KubeConfigInternal, Error>,
    clientConfig: (KubeConfigInternal, ConfigOverrides) -> Result<ConfigFields, Error>,
    newForConfig: ConfigFields -> Option<Error>,
    newCachedDiscoveryClient: DiscoveryArgs -> Option<Error>,
    defaultLoadingRules: LoadingRules,
    clusterDefaults: Cluster)
}

=== FILE: wrappers.dfy ===
/** Failure-carrying values shared by the other modules: Go's `(T, error)` pairs become `Result`s. */
module Wrappers {

  datatype Option<+T> = None | Some(value: T)

  datatype Result<+T, +E> = Ok(value: T) | Err(error: E)
}
